=== FILE: README.md ===
# Agenda finance core in Dafny

A functional model of the computational core of "agenda", a personal-finance
web app (Peruvian soles; transactions, accounts, monthly budgets, recurring
payments and daily budgets kept in a real-time store). The model covers:

- the balance projection of the dashboard's balance calculator: the recurring
  payments and auto-created daily budgets due between today and a selected
  date, over an explicit Gregorian calendar (days in month with the leap-year
  rule, Sakamoto weekday);
- the two maintenance passes over the store: the default-filling migration of
  recurring payments and the seven-day expiry of pending payments, as map
  rewrites with counts;
- the validators and list editors of the forms: daily budgets, the recurring
  payment dialog, the schema-based recurring payment card, and the
  transaction edit dialog;
- the ledger aggregations: the signed balance fold, the income and expense
  totals, per-category grouping (case-insensitive on the budgets page,
  case-sensitive in the expense chart), budget status tiers, per-day
  transaction counts, the account breakdown and the account total;
- the mock data fixture and its balance.

Money is an exact `real`. The wall clock is a parameter: `today` is a
`Calendar.Date` (month 0..11 as in JavaScript), and where the code compares
instants, an `Instant` is a date plus milliseconds into the day. A number
input is a `NumField`: blank or the spelling of a number. A stored optional
field that older records can lack is a `Field`: `Absent` (undefined), `Null`
or `Present`.

Files: `calendar.dfy` (Calendar), `types.dfy` (Wrappers, Lists, Types),
`text.dfy` (Text: trim, lower-case, decimal spelling), `ledger.dfy`,
`grouping.dfy`, `sorting.dfy` (Sorting: the ascending day sort),
`budgets_page.dfy` (BudgetsPage), `expense_chart.dfy` (ExpenseChart),
`transactions_calendar.dfy`, `balance_calculator.dfy`, `migration.dfy`,
`daily_budget_form.dfy`, `recurring_payment_form.dfy`,
`recurring_payments_form.dfy` (RecurringPaymentsSchema),
`edit_transaction.dfy`, `accounts_page.dfy`, `fixture.dfy`.

## Model

| member | source | states |
|---|---|---|
| BalanceCalculator.ProjectAsWritten | src/components/dashboard/balance-calculator.tsx:34-43 | The projection as the code computes it: when the selected instant is strictly before the current instant, all expense figures are 0 and the available balance is the current balance. Otherwise total = fixed + daily and available = current − total, and the current balance is returned unchanged. |
| BalanceCalculator.Project | src/components/dashboard/balance-calculator.tsx:34-129 | The corrected projection, which compares calendar dates. Only a date strictly before today yields the unchanged result. The same total and available-balance identities hold. |
| BalanceCalculator.PaymentChargeIsDueCount | src/components/dashboard/balance-calculator.tsx:46-71 | In the same month a payment is counted once iff today ≤ dayOfMonth ≤ selected day. Across months it is counted once for the current month's tail and once more for the selected month's head. Either way the charge equals the amount times the number of dates in the window from today to the selected date that fall on its day of month. |
| BalanceCalculator.WindowMembers | src/components/dashboard/balance-calculator.tsx:53-113 | A date is in the counted window iff it is valid, lies between today and the selected date, and is in today's month or the selected month. Intervening months are never counted. |
| BalanceCalculator.PaymentChargeOverCounts | src/components/dashboard/balance-calculator.tsx:59-61 | A payment on day 31 seen from a 30-day month is charged for the current month although no such date exists. |
| BalanceCalculator.RunChargeCounts | src/components/dashboard/balance-calculator.tsx:81-89 | The day loop adds the per-day cost once for each day of the range whose weekday is among the budget's days. |
| BalanceCalculator.BudgetChargeIsScheduledCount | src/components/dashboard/balance-calculator.tsx:74-118 | An auto-created budget costs the sum of its item amounts times the number of window dates whose weekday it lists. Across months this covers today..end of the current month plus 1..the selected day. |
| BalanceCalculator.ManualBudgetsCostNothing | src/components/dashboard/balance-calculator.tsx:75-117 | Budgets with autoCreate false contribute 0. |
| BalanceCalculator.FixedIgnoresLaterMonth | src/components/dashboard/balance-calculator.tsx:53-68 | Across months the fixed expenses depend only on the selected day, not on which later month is selected. |
| BalanceCalculator.AvailableAtMostBalance | src/components/dashboard/balance-calculator.tsx:120-121 | With non-negative amounts the total expenses are ≥ 0 and the available balance is ≤ the current balance. |
| BalanceCalculator.AsWrittenAgreesFromNow | src/components/dashboard/balance-calculator.tsx:35-129 | From the current instant on, the as-written projection equals the corrected one. |
| BalanceCalculator.AsWrittenDropsToday | src/components/dashboard/balance-calculator.tsx:34-43 | Selecting today's date (local midnight) at any later time of the day yields no expenses. |
| BalanceCalculator.ProjectCoversToday | src/components/dashboard/balance-calculator.tsx:34-52 | Corrected: a payment due today is charged when today is selected. |
| Calendar.DaysInMonth | src/components/dashboard/balance-calculator.tsx:95 | Day 0 of the next month is 28..31. It is 31 for the long months, 30 for the four short ones, and 29 or 28 in February by the leap-year rule. |
| Calendar.WeekdayOfNextDay | src/components/dashboard/balance-calculator.tsx:82-108 | `getDay` of the following date is one more, modulo 7, across month and year ends. |
| Migration.RewriteWhere | src/lib/migration.ts:20-76 | The record loop keeps every key, rewrites exactly the picked records, leaves the others unchanged, and counts the picked records. |
| Migration.Migrated | src/lib/migration.ts:26-31 | A record is rewritten iff daysOfWeek or requiresApproval is missing. A rewritten record gets null and true, so an explicit false with a missing weekday field becomes true. Name, amount, category, day and description are kept, and the result never needs migrating. |
| Migration.MigrateRecurringPayments | src/lib/migration.ts:14-39 | An absent collection gives no store and 0, and an empty one is unchanged with 0. Otherwise every record is migrated and the count is the number of records missing a field. |
| Migration.MigrationIdempotent | src/lib/migration.ts:26-39 | A second pass picks nothing and changes nothing. |
| Migration.CleanupOldPendingPayments | src/lib/migration.ts:55-79 | Exactly the records created more than seven days before now are set to rejected, the others are unchanged, and the count is their number. |
| Migration.CleanupIgnoresStatus | src/lib/migration.ts:66-76 | The cleanup pass marks an old approved record rejected and counts it among the cleaned records. |
| Migration.CleanupSecondPass | src/lib/migration.ts:70-79 | A second cleanup with the same now leaves the map unchanged but picks, and so counts, the same records again. |
| DailyBudgetForm.Load | src/components/settings/daily-budget-form.tsx:78-98 | Editing loads the budget's name, category, days and autoCreate as stored, its description and account or "" when missing, and its items or a single blank row when it has none. A new form is blank: empty texts, no days, autoCreate off, one blank row. |
| DailyBudgetForm.ValidItems | src/components/settings/daily-budget-form.tsx:115 | The filter keeps exactly the rows with a non-blank name and a positive amount. |
| DailyBudgetForm.ValidItemsConcat | src/components/settings/daily-budget-form.tsx:115 | The filter keeps the original order. |
| DailyBudgetForm.TrimmedNameIffNotBlank | src/components/settings/daily-budget-form.tsx:115 | The row test is the same as "trimmed name non-empty". |
| DailyBudgetForm.Submit | src/components/settings/daily-budget-form.tsx:100-156 | Refused iff no day is chosen, then refused iff no row is valid. Otherwise it adds, or updates the edited id, with items = the valid rows, limit = their total (> 0), name, category and autoCreate as held, and the chosen days in ascending order (each as often as held), because the day caption sorts the held list in place on every render (line 193). An empty description or account becomes no value; a non-empty one is sent as itself. |
| DailyBudgetForm.NoValidItemIffAllInvalid | src/components/settings/daily-budget-form.tsx:115-124 | The filter is empty iff every row fails the test. |
| DailyBudgetForm.ValidTotalPositive | src/components/settings/daily-budget-form.tsx:127 | Valid rows add up to a positive limit. |
| DailyBudgetForm.LimitAtMostDisplayed | src/components/settings/daily-budget-form.tsx:127 | With non-negative amounts the saved limit (the valid rows only) is at most the total shown under the rows (line 216, every row). |
| DailyBudgetForm.LoadSubmitRoundTrip | src/components/settings/daily-budget-form.tsx:78-141 | Opening a budget with days, valid items and a matching limit and submitting it unchanged sends it back as an update of the same id with its days sorted ascending; a budget whose days are already ascending comes back exactly. |
| DailyBudgetForm.TickedDaysSentAscending | src/components/settings/daily-budget-form.tsx:183-193 | Ticking day 5 and then day 1 holds [5, 1], and the submit sends [1, 5]. |
| DailyBudgetForm.ToggleDay | src/components/settings/daily-budget-form.tsx:183-189 | The day becomes chosen iff it was not, other days keep their membership, and an unchosen day is appended. |
| DailyBudgetForm.ToggleTwice | src/components/settings/daily-budget-form.tsx:183-189 | Toggling twice restores membership, and restores the list when the day was not chosen. |
| DailyBudgetForm.AddItem | src/components/settings/daily-budget-form.tsx:199-202 | Exactly one blank row is appended, whose id is the decimal spelling of the new length. |
| DailyBudgetForm.RemoveItem | src/components/settings/daily-budget-form.tsx:204-208 | A list of at most one row is unchanged. Otherwise every row with the id is dropped and every other row is kept, in order and with every copy (the result is the row filter that DailyBudgetForm.DropIdConcat and DailyBudgetForm.DropIdSingleton characterise). |
| DailyBudgetForm.DropIdConcat | src/components/settings/daily-budget-form.tsx:206 | The row filter distributes over concatenation, so the kept rows stay in their order and duplicates are not merged. |
| DailyBudgetForm.DropIdSingleton | src/components/settings/daily-budget-form.tsx:206 | A single row is kept exactly when its id differs from the removed id. |
| DailyBudgetForm.DuplicateRowsKept | src/components/settings/daily-budget-form.tsx:204-208 | Removing a row from [gone, kept, kept] leaves both copies of the kept row. |
| DailyBudgetForm.IdsCollideAfterRemoval | src/components/settings/daily-budget-form.tsx:199-208 | Three rows, remove "1", add: two rows share id "3", and removing "3" drops both. |
| DailyBudgetForm.Apply | src/components/settings/daily-budget-form.tsx:210-214 | The edited field takes the new value (a blank amount becomes 0), and the id and the other fields are kept. |
| DailyBudgetForm.UpdateItem | src/components/settings/daily-budget-form.tsx:210-214 | The length is kept; rows with the id get the edit and all other rows are unchanged. |
| RecurringPaymentForm.Load | src/components/settings/recurring-payment-form.tsx:53-71 | A new form is blank with approval required. An edited payment loads its name, category, amount and day as stored, its weekdays or an empty list when missing or null, and its description or "" when missing. It keeps its approval flag off only when that flag is exactly false. |
| RecurringPaymentForm.DayOfWeekChange | src/components/settings/recurring-payment-form.tsx:73-79 | Checking appends the day; unchecking removes every occurrence and keeps the other days. |
| RecurringPaymentForm.UncheckKeepsOrder | src/components/settings/recurring-payment-form.tsx:77 | Unchecking filters element by element: it distributes over any split of the list, so the remaining days keep their order. |
| RecurringPaymentForm.DayListedTwice | src/components/settings/recurring-payment-form.tsx:73-79 | Checking a day twice lists it twice, and one uncheck removes both. |
| Lists.RemoveAll | src/components/settings/recurring-payment-form.tsx:77 | The value is absent afterwards, every other value keeps its membership, and a list without the value is unchanged. |
| RecurringPaymentForm.Submit | src/components/settings/recurring-payment-form.tsx:81-123 | Refused iff a required field is empty, then refused iff the truncated day is outside 1..31. Otherwise the name, category and parsed amount are sent as held and the day as its truncation. A non-empty weekday list or description is sent as itself, and an empty one as no value. The approval flag is sent as chosen, and the edited id is sent only on update. |
| RecurringPaymentForm.ZeroAmountAccepted | src/components/settings/recurring-payment-form.tsx:84-107 | An amount of 0 passes and is sent as 0. |
| RecurringPaymentForm.LoadSubmitRoundTrip | src/components/settings/recurring-payment-form.tsx:53-120 | An opened payment with filled fields and a day in 1..31, submitted unchanged, is sent back under the same id. |
| RecurringPaymentsSchema.Issues | src/components/settings/recurring-payments-form.tsx:16-21 | Each rule fails iff its condition fails: name shorter than 2, coerced amount ≤ 0, coerced day < 1 or > 31, category shorter than 2. |
| RecurringPaymentsSchema.Parse | src/components/settings/recurring-payments-form.tsx:16-21 | Valid iff all four rules hold. A valid result carries exactly the name, the coerced amount and day, and the category; an invalid one reports every failing rule. |
| RecurringPaymentsSchema.DefaultsRejected | src/components/settings/recurring-payments-form.tsx:18-34 | The default values fail on name, amount and category, but not on day. |
| RecurringPaymentsSchema.BlankFieldsRejected | src/components/settings/recurring-payments-form.tsx:18-19 | Empty number inputs coerce to 0 and fail the amount and day rules. |
| RecurringPaymentsSchema.PayloadRoundTrip | src/components/settings/recurring-payments-form.tsx:16-40 | Every acceptable payload typed back into the form parses to itself. |
| RecurringPaymentsSchema.FractionalDayAccepted | src/components/settings/recurring-payments-form.tsx:19 | A fractional day such as 1.5 passes the day rule. |
| RecurringPaymentsSchema.Submit | src/components/settings/recurring-payments-form.tsx:37-47 | Only valid values are sent, as the parsed payload. The form returns to its defaults exactly when a valid add succeeds (or it already held them), and is otherwise unchanged. |
| RecurringPaymentsSchema.SuccessfulAddResets | src/components/settings/recurring-payments-form.tsx:29-46 | After a successful add an immediate resubmit sends nothing. |
| RecurringPaymentsSchema.FailedAddResends | src/components/settings/recurring-payments-form.tsx:41-53 | After a failed add the same payload can be sent again. |
| EditTransaction.Load | src/components/dashboard/edit-transaction-dialog.tsx:64-69 | The dialog starts from the transaction's own values. The account is the placeholder "no-accounts" when the transaction has none. |
| EditTransaction.InitialAccount | src/components/dashboard/edit-transaction-dialog.tsx:69 | The placeholder is chosen iff the account id is missing or empty (or is the placeholder itself); otherwise the id is kept. |
| EditTransaction.Submit | src/components/dashboard/edit-transaction-dialog.tsx:80-124 | Without data nothing happens. Otherwise the checks run as amount (empty or ≤ 0), category, account, each refusal iff the earlier checks pass. The update keeps the id, sends the positive parsed amount and the fields, and the date falls back to today. |
| EditTransaction.SetType | src/components/dashboard/edit-transaction-dialog.tsx:166 | Changing the type changes nothing else. |
| EditTransaction.SetTypeKeepsChecks | src/components/dashboard/edit-transaction-dialog.tsx:86-124 | A type switch never changes which check fails, and a sent update differs only in its type. |
| EditTransaction.CategoryKeptAcrossTypes | src/components/dashboard/edit-transaction-dialog.tsx:166-212 | An income category is kept and sent after switching to expense. |
| EditTransaction.LoadSubmitRoundTrip | src/components/dashboard/edit-transaction-dialog.tsx:64-124 | A valid transaction opened and submitted unchanged is sent back as itself. |
| EditTransaction.MissingAccountBlocks | src/components/dashboard/edit-transaction-dialog.tsx:69-111 | A transaction without an account is refused for the account. |
| BudgetsPage.BudgetStatuses | src/app/budgets/page.tsx:38-60 | One status per budget in order. Spent is the total of expenses whose lower-cased category matches, over-budget iff spent > limit, and spent + remaining = limit. |
| BudgetsPage.UnmatchedBudgetSpendsNothing | src/app/budgets/page.tsx:49 | Without a matching expense, spent is 0 and the budget is not over. |
| BudgetsPage.CaseInsensitiveMatch | src/app/budgets/page.tsx:42-49 | An expense whose category differs only in case is counted for the budget. |
| BudgetsPage.TierBySpending | src/app/budgets/page.tsx:100-128 | Exactly one tier applies: over iff spent > limit, warning iff spent is above 80 % of the limit but not above the limit, on track iff spent is at most 80 % of the limit. |
| BudgetsPage.ProgressFullIffLimitReached | src/app/budgets/page.tsx:50-113 | The bar is capped at 100 and is full iff spent ≥ limit. |
| Sorting.SortDaysSpec | src/app/budgets/page.tsx:158 | The sorted days are ascending and a permutation of the picked days, each day kept as often as it was picked. |
| Sorting.SortedUnique | src/app/budgets/page.tsx:158 | Two ascending permutations of the same days are equal. |
| BudgetsPage.DaysTextIgnoresOrder | src/app/budgets/page.tsx:157-161 | The days text depends only on which days are chosen, not their order. |
| ExpenseChart.ChartDataSpec | src/components/dashboard/expense-chart.tsx:19-31 | One entry per distinct exact category among the expenses. Each entry's value is that category's expense total, and the entries sum to the total expenses. |
| ExpenseChart.CaseSensitivityDiffers | src/components/dashboard/expense-chart.tsx:21-24 | "Food" and "food" are two chart entries, while the budgets page merges them. |
| Grouping.GroupExpensesSpec | src/app/budgets/page.tsx:39-45 | The grouping fold gives one entry per normalised category with the sum of its amounts, and the totals add up to the total expenses. |
| Ledger.BalanceAppend | src/lib/data.ts:49-51 | Appending an income raises the balance by its amount and an expense lowers it. |
| Ledger.BalanceIsIncomeMinusExpenses | src/lib/data.ts:49-51 | The signed fold is total income minus total expenses. |
| Ledger.BalancePermutation | src/lib/data.ts:49-51 | The balance does not depend on transaction order. |
| Ledger.OfKind | src/components/dashboard/overview-cards.tsx:21-27 | The kind filter keeps exactly the transactions of that kind. |
| Ledger.UpcomingIgnoresSchedule | src/components/dashboard/overview-cards.tsx:29 | The upcoming amount depends only on the payment amounts, whatever their days. |
| Ledger.AccountBreakdown | src/components/dashboard/overview-cards.tsx:39-42 | One share per account in order. Each percentage is the account balance divided by the current balance, times 100, when the current balance is positive, and 0 otherwise; it lies in 0..100 for a balance between 0 and the total. |
| Ledger.PercentagesSumToHundred | src/components/dashboard/overview-cards.tsx:39-42 | With a positive total equal to the account sum, the percentages add up to 100. |
| Ledger.OverviewTypeLabel | src/components/dashboard/overview-cards.tsx:70-73 | The four known types map to their labels and anything else to "Otro". |
| TransactionsCalendar.CountsAreTransactionCounts | src/components/dashboard/transactions-calendar.tsx:17-30 | A day's income and expense counters are the numbers of income and expense transactions on that day. |
| TransactionsCalendar.ByDayShape | src/components/dashboard/transactions-calendar.tsx:17-30 | One counter set per day that has transactions, and all counters add up to the number of transactions. |
| TransactionsCalendar.MarkersIff | src/components/dashboard/transactions-calendar.tsx:33-53 | A day has the income (expense) dot iff an income (expense) transaction falls on it. |
| AccountsPage.TotalBalance | src/app/accounts/page.tsx:88-91 | 0 without data or without accounts, otherwise the sum of the balances. |
| AccountsPage.TotalBalanceAppend | src/app/accounts/page.tsx:88-91 | Adding an account moves the total by its balance. |
| AccountsPage.TypeInfoOf | src/app/accounts/page.tsx:84-86 | A listed type maps to its own entry and any other type to the first entry, cash. |
| AccountsPage.Find | src/app/accounts/page.tsx:85 | The search finds an entry iff one has the value, and returns the first such entry. |
| AccountsPage.LabelsAgreeOnKnownTypes | src/app/accounts/page.tsx:84-86 | The four bank and cash types read the same as on the overview. An unlisted type reads "Efectivo" here and "Otro" there. |
| AccountsPage.Status | src/app/accounts/page.tsx:192-196 | "Activa" iff the balance is ≥ 0, and "En rojo" iff it is negative. |
| AccountsPage.NegativeTotalShowsRed | src/app/accounts/page.tsx:190-196 | A negative total (the sum of lines 88-91) always shows at least one "En rojo" badge. |
| AccountsPage.PluralSuffix | src/app/accounts/page.tsx:141 | The suffix is "s" iff the count is not 1. |
| Fixture.FixtureWellFormed | src/lib/data.ts:8-47 | All transaction amounts are positive, all dates are real days (month −1 rolls into December), every payment day is in 1..31, and all budget limits are positive. |
| Fixture.FixtureBalance | src/lib/data.ts:8-51 | The fixture balance is 19922.84 for any current month. |
| Text.TrimEmptyIffBlank | src/components/settings/daily-budget-form.tsx:115 | Trimming gives the empty string iff the text is all whitespace. |
| Text.ToLowerIdempotent | src/app/budgets/page.tsx:42-49 | Lower-casing twice is lower-casing once. |
| Text.NatToStringRoundTrip | src/components/settings/daily-budget-form.tsx:200 | The decimal spelling of a number reads back as that number. |

## Left out

- Store I/O: the real-time database reads and writes, subscriptions and logging are not modelled. The migration and the cleanup are modelled as pure map rewrites plus counts. A value written as `null` is modelled as an explicit `Null`; whether the store drops such keys is not visible in this code.
- The scheduling engine (detecting due recurring payments and daily budgets, approving and rejecting pending payments, keeping account balances) is imported by the server actions, but its source is not part of this model. Nothing of its behaviour is invented here.
- Server actions, path revalidation and the AI advice flows: thin wrappers and language-model prompts.
- The auto-payment executor reads a `deletedCount` field while the cleanup returns `cleaned`. This mismatch is noted and not modelled.
- React state, effects, toasts, dialogs and JSX. Currency and date formatting (`Intl.NumberFormat`, `toLocaleDateString`).
- JavaScript numbers: floating-point rounding, `NaN` from `parseFloat`, and division by zero. Money is an exact `real`. The budget percentage requires a positive limit.
- BudgetsPage.BudgetStatuses: requires every limit to be positive; a zero limit yields `Infinity` or `NaN` in the code.
- The wall clock: `today` and `now` are parameters. Daylight-saving shifts are ignored. The cleanup's `setDate(getDate() - 7)` is modelled as exactly seven days of milliseconds.
- BalanceCalculator.PaymentChargeIsDueCount: requires the payment day to exist in today's month when the months differ, because the code's count is not a date count otherwise (BalanceCalculator.PaymentChargeOverCounts shows it).
- Object key order of `Object.entries` and of the grouping object: the grouping is modelled as an association list in first-seen order, and the contracts speak of contents, not order.
- Grouping.GroupExpensesSpec: holds only for categories (after normalising) that are not property names inherited from `Object.prototype` (`constructor`, `toString`, `valueOf`, `hasOwnProperty`, `isPrototypeOf`, `propertyIsEnumerable`, `toLocaleString`, `__proto__` and the `__define…`/`__lookup…` accessors). The grouping object starts as `{}`, so such a key reads an inherited value: `+=` on an inherited function yields a string, and `__proto__` goes to its setter and leaves no entry. The model's grouping is a clean association list.
- ExpenseChart.ChartDataSpec: the "one entry iff some expense has the category" and "entries sum to the total expenses" clauses hold only when no expense category is an inherited `Object.prototype` property name. With "toString" or "constructor" the chart value becomes a string, and with "__proto__" no entry appears.
- BudgetsPage.BudgetStatuses: spent, remaining and the over-budget test hold only when no lower-cased expense or budget category is an inherited `Object.prototype` property name. On such names `(acc[cat] || 0) + amount` concatenates to a string.
- BudgetsPage.UnmatchedBudgetSpendsNothing: holds only when the budget's lower-cased category is not an inherited `Object.prototype` property name. A budget "Constructor" without a matching expense reads the inherited `Object` function as spent, not 0, and its percentage and remaining become `NaN`.
- Text.ToLower covers ASCII and Latin-1 capitals only, not all of Unicode. Trimming uses the ASCII and Latin-1 whitespace set.
- The transactions calendar keys days by calendar date; the time zone of `toDateString` is not modelled.
- The daily-budget form's day caption sorts the held day list in place, and on an edited budget that list is the budget object's own `daysOfWeek`. The model covers the effect on what is sent (DailyBudgetForm.Submit sends the days ascending). It does not model that the in-memory budget object shown elsewhere is reordered too.
- String lengths in the schema count characters, not UTF-16 code units.
- Icons and colours of the account types are display-only. The colours are kept as data, and the icons are left out.
- DailyBudgetForm.Submit: models `handleSubmit` only. The browser's constraint validation runs before it. The budget name and category, and every row's name, amount and category, are `required`. A row amount has `min="0"` and `step="0.01"`, and an amount of 0 is shown empty, so `required` refuses it. So the browser lets a submit through only when every row is filled in, and `Refused(NoValidItem)` is reachable in practice only with whitespace-only row names. These attributes are props of the UI library's input, whose source is not part of this model.
- RecurringPaymentForm.Submit: models `handleSubmit` only. Behind it, the amount input's `min="0"` and `step="0.01"` and the `required` markers make the browser block negative amounts and other values the model's submit would send.
- EditTransaction.Submit: models `handleSubmit` only. Behind it, the amount input's `min="0.01"` makes the browser block amounts below 0.01 before the handler's own check runs.
- Migration.CleanupIgnoresStatus: the intended lifecycle treats approved and rejected as terminal. The cleanup code does not look at the status, and the model follows the code.

## Findings

| source | as written | input that shows it | evidently intended | confidence | as-written member | corrected member |
|---|---|---|---|---|---|---|
| src/components/dashboard/balance-calculator.tsx:34-35 | `date < today` compares the selected date (local midnight from the date picker) with the current instant, so selecting today's date at any time after midnight returns the "past date" result with no expenses. | now = today at 09:00, selected = today at 00:00, one recurring payment due today: fixed expenses 0 and available balance = current balance. | The comment says to compute for a date in the future or equal to today. Today's date should be projected and include the payments and budget days due today. | not executed | BalanceCalculator.ProjectAsWritten (BalanceCalculator.AsWrittenDropsToday) | BalanceCalculator.Project (BalanceCalculator.ProjectCoversToday) |

=== FILE: accounts_page.dfy ===
/** The accounts page: the total over all accounts, the type shown for each
    account, its balance badge and the plural of the summary line. */
module AccountsPage {
  import opened Wrappers
  import opened Types
  import Ledger

  /** One entry of the page's account-type table (the icon is left out). */
  datatype TypeInfo = TypeInfo(typeValue: string, caption: string, color: string)

  const AccountTypes: seq<TypeInfo> := [
    TypeInfo("cash", "Efectivo", "#10B981"),
    TypeInfo("bcp", "BCP", "#3B82F6"),
    TypeInfo("interbank", "Interbank", "#F59E0B"),
    TypeInfo("banconacion", "Banco de la Nación", "#8B5CF6"),
    TypeInfo("other", "Otro", "#6B7280")
  ]

  /** `types.find(t => t.value === value)`: the first entry with that value. */
  function Find(types: seq<TypeInfo>, value: string): (r: Option<TypeInfo>)
    ensures r.Some? <==> exists i :: 0 <= i < |types| && types[i].typeValue == value
    ensures r.Some? ==> r.value.typeValue == value && r.value in types
    ensures r.Some? ==> exists i :: (0 <= i < |types| && types[i] == r.value
                                     && forall j :: 0 <= j < i ==> types[j].typeValue != value)
  {
    if types == [] then None
    else if types[0].typeValue == value then Some(types[0])
    else
      var r := Find(types[1..], value);
      if r.Some? then
        var i :| 0 <= i < |types[1..]| && types[1..][i] == r.value
          && forall j :: 0 <= j < i ==> types[1..][j].typeValue != value;
        assert types[i + 1] == r.value;
        r
      else
        r
  }

  /** `getAccountTypeInfo`: the entry for the type, or the first entry
      (cash) for a type the table does not list. */
  function TypeInfoOf(accountType: string): (r: TypeInfo)
    ensures r in AccountTypes
    ensures accountType in ["cash", "bcp", "interbank", "banconacion", "other"] ==> r.typeValue == accountType
    ensures accountType !in ["cash", "bcp", "interbank", "banconacion", "other"] ==> r == AccountTypes[0]
  {
    Find(AccountTypes, accountType).GetOr(AccountTypes[0])
  }

  /** `getTotalBalance`: 0 before the data arrives (`None`), otherwise the
      balances added up. */
  function TotalBalance(accounts: Option<seq<Account>>): (total: real)
    ensures accounts == None || accounts == Some([]) ==> total == 0.0
    ensures accounts.Some? ==> total == Ledger.SumBalances(accounts.value)
  {
    if accounts.None? then 0.0
    else Ledger.SumBalances(accounts.value)
  }

  /** The balance badge. */
  function Status(balance: real): (badge: string)
    ensures badge == "Activa" <==> balance >= 0.0
    ensures badge == "En rojo" <==> balance < 0.0
  {
    if balance >= 0.0 then "Activa" else "En rojo"
  }

  /** The `s` of "cuenta{s}" in the summary line. */
  function PluralSuffix(count: nat): (suffix: string)
    ensures suffix == "s" <==> count != 1
    ensures suffix == "" <==> count == 1
  {
    if count != 1 then "s" else ""
  }

  /** Adding one account moves the total by exactly its balance. */
  lemma TotalBalanceAppend(accounts: seq<Account>, a: Account)
    ensures TotalBalance(Some(accounts + [a])) == TotalBalance(Some(accounts)) + a.balance
  {
    assert (accounts + [a])[..|accounts|] == accounts;
  }

  /** When every badge reads "Activa" the total is not negative. */
  lemma {:induction false} AllActiveTotalNonNegative(accounts: seq<Account>)
    requires forall i :: 0 <= i < |accounts| ==> Status(accounts[i].balance) == "Activa"
    ensures TotalBalance(Some(accounts)) >= 0.0
    decreases |accounts|
  {
    if accounts != [] {
      var init := accounts[..|accounts| - 1];
      assert forall i :: 0 <= i < |init| ==> init[i] == accounts[i];
      AllActiveTotalNonNegative(init);
      assert Status(accounts[|accounts| - 1].balance) == "Activa";
    }
  }

  /** So a negative total always shows at least one "En rojo" badge. */
  lemma NegativeTotalShowsRed(accounts: seq<Account>)
    requires TotalBalance(Some(accounts)) < 0.0
    ensures exists i :: 0 <= i < |accounts| && Status(accounts[i].balance) == "En rojo"
  {
    if forall i :: 0 <= i < |accounts| ==> Status(accounts[i].balance) == "Activa" {
      AllActiveTotalNonNegative(accounts);
    }
  }

  /** The accounts page and the overview cards name the four bank and cash
      types alike, but an unlisted type reads "Efectivo" here and "Otro" on
      the overview. */
  lemma LabelsAgreeOnKnownTypes(accountType: string)
    ensures accountType in ["cash", "bcp", "interbank", "banconacion"]
      ==> TypeInfoOf(accountType).caption == Ledger.OverviewTypeLabel(accountType)
    ensures accountType !in ["cash", "bcp", "interbank", "banconacion", "other"]
      ==> TypeInfoOf(accountType).caption == "Efectivo" && Ledger.OverviewTypeLabel(accountType) == "Otro"
  {
  }
}

=== FILE: balance_calculator.dfy ===
/** The forward balance projection of the dashboard: given the current
    balance, the recurring payments and the daily budgets, what is left on a
    selected future day once the payments falling due and the auto-created
    daily expenses up to that day are taken off.

    The projection walks the rest of today's month and, when the selected
    day lies in a later month, the start of that month; the months in
    between are not walked. */
module BalanceCalculator {
  import opened Types
  import opened Calendar

  datatype Projection = Projection(
    currentBalance: real,
    fixedExpenses: real,
    dailyBudgetExpenses: real,
    totalExpenses: real,
    availableBalance: real)

  /** How much one recurring payment adds to the fixed expenses. In today's
      month it counts when its day lies between today and the selected day;
      otherwise it counts once for the rest of today's month and once more
      for the start of the selected month. */
  function PaymentCharge(p: RecurringPayment, today: Date, sel: Date): real {
    if SameMonth(sel, today) then
      (if p.dayOfMonth >= today.day && p.dayOfMonth <= sel.day then p.amount else 0.0)
    else
      (if p.dayOfMonth >= today.day then p.amount else 0.0)
      + (if p.dayOfMonth <= sel.day then p.amount else 0.0)
  }

  function FixedExpenses(ps: seq<RecurringPayment>, today: Date, sel: Date): real {
    if ps == [] then 0.0
    else FixedExpenses(ps[..|ps| - 1], today, sel) + PaymentCharge(ps[|ps| - 1], today, sel)
  }

  /** The `for (day = lo; day <= hi; day++)` loop over days of month m of
      year y: each day whose weekday is scheduled adds `perDay`. */
  function RunCharge(y: int, m: int, lo: int, hi: int, days: seq<int>, perDay: real): real
    requires 0 <= m < 12
    decreases hi - lo
  {
    if lo > hi then 0.0
    else
      RunCharge(y, m, lo, hi - 1, days, perDay)
      + (if Weekday(Date(y, m, hi)) in days then perDay else 0.0)
  }

  /** How much one daily budget adds; budgets that do not auto-create add
      nothing. */
  function BudgetCharge(b: DailyBudget, today: Date, sel: Date): real
    requires ValidDate(today) && ValidDate(sel)
  {
    if !b.autoCreate then 0.0
    else if SameMonth(sel, today) then
      RunCharge(sel.year, sel.month, today.day, sel.day, b.daysOfWeek, ItemsTotal(b.items))
    else
      RunCharge(today.year, today.month, today.day, DaysInMonth(today.year, today.month), b.daysOfWeek, ItemsTotal(b.items))
      + RunCharge(sel.year, sel.month, 1, sel.day, b.daysOfWeek, ItemsTotal(b.items))
  }

  function DailyBudgetExpenses(bs: seq<DailyBudget>, today: Date, sel: Date): real
    requires ValidDate(today) && ValidDate(sel)
  {
    if bs == [] then 0.0
    else DailyBudgetExpenses(bs[..|bs| - 1], today, sel) + BudgetCharge(bs[|bs| - 1], today, sel)
  }

  /** The figures for a selected day that is not in the past. */
  function Compute(balance: real, ps: seq<RecurringPayment>, bs: seq<DailyBudget>, today: Date, sel: Date): Projection
    requires ValidDate(today) && ValidDate(sel)
  {
    var fixed := FixedExpenses(ps, today, sel);
    var daily := DailyBudgetExpenses(bs, today, sel);
    Projection(balance, fixed, daily, fixed + daily, balance - (fixed + daily))
  }

  function Unchanged(balance: real): Projection {
    Projection(balance, 0.0, 0.0, 0.0, balance)
  }

  /** `calculateBalanceForDate` as written: the selected date and the
      current instant are compared as instants, so a selected day at an
      earlier time of day than now counts as past. */
  function ProjectAsWritten(balance: real, ps: seq<RecurringPayment>, bs: seq<DailyBudget>, now: Instant, sel: Instant): (r: Projection)
    requires ValidInstant(now) && ValidInstant(sel)
    ensures r.currentBalance == balance
    ensures r.totalExpenses == r.fixedExpenses + r.dailyBudgetExpenses
    ensures r.availableBalance == r.currentBalance - r.totalExpenses
    ensures InstantBefore(sel, now) ==> r == Unchanged(balance)
  {
    if InstantBefore(sel, now) then Unchanged(balance)
    else Compute(balance, ps, bs, now.date, sel.date)
  }

  /** The projection as its guard describes it: only a selected day before
      today's calendar day is past, so today itself is projected. */
  function Project(balance: real, ps: seq<RecurringPayment>, bs: seq<DailyBudget>, today: Date, sel: Date): (r: Projection)
    requires ValidDate(today) && ValidDate(sel)
    ensures r.currentBalance == balance
    ensures r.totalExpenses == r.fixedExpenses + r.dailyBudgetExpenses
    ensures r.availableBalance == r.currentBalance - r.totalExpenses
    ensures DateBefore(sel, today) ==> r == Unchanged(balance)
  {
    if DateBefore(sel, today) then Unchanged(balance)
    else Compute(balance, ps, bs, today, sel)
  }

  // ---------------------------------------------------------------------
  // The window of days walked, as an independent reference.

  /** The dates lo..hi of month m of year y, in order. */
  function MonthDays(y: int, m: int, lo: int, hi: int): (r: seq<Date>)
    decreases hi - lo
    ensures |r| == if lo <= hi then hi - lo + 1 else 0
    ensures forall i :: 0 <= i < |r| ==> r[i] == Date(y, m, lo + i)
  {
    if lo > hi then [] else MonthDays(y, m, lo, hi - 1) + [Date(y, m, hi)]
  }

  /** The days from today to the selected day that the projection covers. */
  function Window(today: Date, sel: Date): seq<Date>
    requires ValidDate(today) && ValidDate(sel)
  {
    if SameMonth(sel, today) then MonthDays(sel.year, sel.month, today.day, sel.day)
    else
      MonthDays(today.year, today.month, today.day, DaysInMonth(today.year, today.month))
      + MonthDays(sel.year, sel.month, 1, sel.day)
  }

  predicate MonthsInRange(ds: seq<Date>) {
    forall i :: 0 <= i < |ds| ==> 0 <= ds[i].month < 12
  }

  /** How many of the dates fall on day-of-month dom. */
  function CountDue(ds: seq<Date>, dom: int): nat {
    if ds == [] then 0
    else CountDue(ds[..|ds| - 1], dom) + (if ds[|ds| - 1].day == dom then 1 else 0)
  }

  /** How many of the dates fall on one of the given weekdays. */
  function CountScheduled(ds: seq<Date>, days: seq<int>): nat
    requires MonthsInRange(ds)
  {
    if ds == [] then 0
    else CountScheduled(ds[..|ds| - 1], days) + (if Weekday(ds[|ds| - 1]) in days then 1 else 0)
  }

  lemma {:induction false} CountDueConcat(a: seq<Date>, b: seq<Date>, dom: int)
    ensures CountDue(a + b, dom) == CountDue(a, dom) + CountDue(b, dom)
    decreases |b|
  {
    if b != [] {
      assert (a + b)[..|a + b| - 1] == a + b[..|b| - 1];
      CountDueConcat(a, b[..|b| - 1], dom);
    } else {
      assert a + b == a;
    }
  }

  lemma {:induction false} CountScheduledConcat(a: seq<Date>, b: seq<Date>, days: seq<int>)
    requires MonthsInRange(a) && MonthsInRange(b)
    ensures MonthsInRange(a + b)
    ensures CountScheduled(a + b, days) == CountScheduled(a, days) + CountScheduled(b, days)
    decreases |b|
  {
    if b != [] {
      assert (a + b)[..|a + b| - 1] == a + b[..|b| - 1];
      CountScheduledConcat(a, b[..|b| - 1], days);
    } else {
      assert a + b == a;
    }
  }

  /** An amount charged n times. */
  function Times(amount: real, n: nat): real {
    amount * n as real
  }

  lemma TimesOnceOrNever(x: real)
    ensures Times(x, 0) == 0.0 && Times(x, 1) == x
  {
  }

  lemma Distribute(x: real, a: nat, b: nat)
    ensures Times(x, a + b) == Times(x, a) + Times(x, b)
  {
  }

  /** A run of consecutive days holds day dom once when dom is in the run and
      not at all otherwise. */
  lemma {:induction false} CountDueMonthDays(y: int, m: int, lo: int, hi: int, dom: int)
    ensures CountDue(MonthDays(y, m, lo, hi), dom) == if lo <= dom <= hi then 1 else 0
    decreases hi - lo
  {
    if lo <= hi {
      var init := MonthDays(y, m, lo, hi - 1);
      var r := init + [Date(y, m, hi)];
      assert r == MonthDays(y, m, lo, hi);
      assert r[..|r| - 1] == init;
      CountDueMonthDays(y, m, lo, hi - 1, dom);
    }
  }

  lemma ChargeStep(perDay: real, c: nat, k: nat, n: nat, prev: real, next: real)
    requires k <= 1 && n == c + k && prev == Times(perDay, c)
    requires next == prev + (if k == 1 then perDay else 0.0)
    ensures next == Times(perDay, n)
  {
    if k == 1 {
      assert (c + k) as real == c as real + 1.0;
      assert perDay * (c as real + 1.0) == perDay * c as real + perDay;
    } else {
      assert c + k == c;
    }
  }

  /** The loop adds `perDay` once per scheduled day of the run. */
  lemma {:induction false} RunChargeCounts(y: int, m: int, lo: int, hi: int, days: seq<int>, perDay: real)
    requires 0 <= m < 12
    ensures MonthsInRange(MonthDays(y, m, lo, hi))
    ensures RunCharge(y, m, lo, hi, days, perDay) == Times(perDay, CountScheduled(MonthDays(y, m, lo, hi), days))
    decreases hi - lo
  {
    if lo <= hi {
      var init := MonthDays(y, m, lo, hi - 1);
      var r := init + [Date(y, m, hi)];
      assert r == MonthDays(y, m, lo, hi);
      assert r[..|r| - 1] == init;
      RunChargeCounts(y, m, lo, hi - 1, days, perDay);
      var k: nat := if Weekday(Date(y, m, hi)) in days then 1 else 0;
      assert CountScheduled(r, days) == CountScheduled(init, days) + k;
      ChargeStep(perDay, CountScheduled(init, days), k, CountScheduled(r, days),
        RunCharge(y, m, lo, hi - 1, days, perDay), RunCharge(y, m, lo, hi, days, perDay));
    } else {
      assert Times(perDay, 0) == 0.0;
    }
  }

  lemma MonthDaysMember(y: int, m: int, lo: int, hi: int, x: Date)
    ensures x in MonthDays(y, m, lo, hi) <==> x.year == y && x.month == m && lo <= x.day <= hi
  {
    var r := MonthDays(y, m, lo, hi);
    if x.year == y && x.month == m && lo <= x.day <= hi {
      assert r[x.day - lo] == x;
    }
  }

  /** The window is exactly the days from today to the selected day that
      lie in today's month or in the selected month: the months in between
      are never covered. */
  lemma WindowMembers(today: Date, sel: Date, x: Date)
    requires ValidDate(today) && ValidDate(sel) && !DateBefore(sel, today)
    ensures x in Window(today, sel)
      <==> ValidDate(x) && !DateBefore(x, today) && !DateBefore(sel, x)
           && (SameMonth(x, today) || SameMonth(x, sel))
  {
    var dim := DaysInMonth(today.year, today.month);
    if SameMonth(sel, today) {
      MonthDaysMember(sel.year, sel.month, today.day, sel.day, x);
    } else {
      MonthDaysMember(today.year, today.month, today.day, dim, x);
      MonthDaysMember(sel.year, sel.month, 1, sel.day, x);
    }
  }

  /** A payment whose day exists in today's month (or any payment when the
      selected day is in today's month) is charged once per occurrence of its
      day in the window. */
  lemma PaymentChargeIsDueCount(p: RecurringPayment, today: Date, sel: Date)
    requires ValidDate(today) && ValidDate(sel) && !DateBefore(sel, today)
    requires 1 <= p.dayOfMonth
    requires SameMonth(sel, today) || p.dayOfMonth <= DaysInMonth(today.year, today.month)
    ensures PaymentCharge(p, today, sel) == Times(p.amount, CountDue(Window(today, sel), p.dayOfMonth))
  {
    var dom := p.dayOfMonth;
    var dim := DaysInMonth(today.year, today.month);
    TimesOnceOrNever(p.amount);
    if SameMonth(sel, today) {
      CountDueMonthDays(sel.year, sel.month, today.day, sel.day, dom);
    } else {
      var a := MonthDays(today.year, today.month, today.day, dim);
      var c := MonthDays(sel.year, sel.month, 1, sel.day);
      assert Window(today, sel) == a + c;
      CountDueConcat(a, c, dom);
      CountDueMonthDays(today.year, today.month, today.day, dim, dom);
      CountDueMonthDays(sel.year, sel.month, 1, sel.day, dom);
      Distribute(p.amount, CountDue(a, dom), CountDue(c, dom));
      assert Times(p.amount, CountDue(a, dom)) == (if dom >= today.day then p.amount else 0.0);
      assert Times(p.amount, CountDue(c, dom)) == (if dom <= sel.day then p.amount else 0.0);
    }
  }

  /** A payment on the 31st is charged for the rest of a 30-day month even
      though that month has no 31st. */
  lemma PaymentChargeOverCounts()
    ensures var p := RecurringPayment("p", "Internet", 50.0, "Servicios", 31, Absent, Wrappers.None, Absent);
      var today := Date(2026, 10, 15);
      var sel := Date(2026, 11, 10);
      PaymentCharge(p, today, sel) == 50.0 && CountDue(Window(today, sel), 31) == 0
  {
    var today := Date(2026, 10, 15);
    var sel := Date(2026, 11, 10);
    CountDueConcat(MonthDays(2026, 10, 15, 30), MonthDays(2026, 11, 1, 10), 31);
    CountDueMonthDays(2026, 10, 15, 30, 31);
    CountDueMonthDays(2026, 11, 1, 10, 31);
  }

  lemma SameMonthBudgetCharge(b: DailyBudget, today: Date, sel: Date)
    requires ValidDate(today) && ValidDate(sel) && b.autoCreate && SameMonth(sel, today)
    ensures MonthsInRange(Window(today, sel))
    ensures BudgetCharge(b, today, sel)
      == Times(ItemsTotal(b.items), CountScheduled(Window(today, sel), b.daysOfWeek))
  {
    RunChargeCounts(sel.year, sel.month, today.day, sel.day, b.daysOfWeek, ItemsTotal(b.items));
    assert Window(today, sel) == MonthDays(sel.year, sel.month, today.day, sel.day);
  }

  /** Two runs charged back to back cost as much as their concatenation. */
  lemma TwoRunsCharge(a: seq<Date>, c: seq<Date>, days: seq<int>, per: real, ra: real, rc: real)
    requires MonthsInRange(a) && MonthsInRange(c)
    requires ra == Times(per, CountScheduled(a, days)) && rc == Times(per, CountScheduled(c, days))
    ensures MonthsInRange(a + c)
    ensures ra + rc == Times(per, CountScheduled(a + c, days))
  {
    CountScheduledConcat(a, c, days);
    Distribute(per, CountScheduled(a, days), CountScheduled(c, days));
  }

  lemma CrossMonthBudgetCharge(b: DailyBudget, today: Date, sel: Date)
    requires ValidDate(today) && ValidDate(sel) && b.autoCreate && !SameMonth(sel, today)
    ensures MonthsInRange(Window(today, sel))
    ensures BudgetCharge(b, today, sel)
      == Times(ItemsTotal(b.items), CountScheduled(Window(today, sel), b.daysOfWeek))
  {
    var per := ItemsTotal(b.items);
    var days := b.daysOfWeek;
    var dim := DaysInMonth(today.year, today.month);
    var a := MonthDays(today.year, today.month, today.day, dim);
    var c := MonthDays(sel.year, sel.month, 1, sel.day);
    var ra := RunCharge(today.year, today.month, today.day, dim, days, per);
    var rc := RunCharge(sel.year, sel.month, 1, sel.day, days, per);
    RunChargeCounts(today.year, today.month, today.day, dim, days, per);
    RunChargeCounts(sel.year, sel.month, 1, sel.day, days, per);
    TwoRunsCharge(a, c, days, per, ra, rc);
    assert Window(today, sel) == a + c;
    assert BudgetCharge(b, today, sel) == ra + rc;
  }

  /** An auto-created daily budget costs its item total once per day of the
      window whose weekday it is scheduled on. */
  lemma BudgetChargeIsScheduledCount(b: DailyBudget, today: Date, sel: Date)
    requires ValidDate(today) && ValidDate(sel) && b.autoCreate
    ensures MonthsInRange(Window(today, sel))
    ensures BudgetCharge(b, today, sel)
      == Times(ItemsTotal(b.items), CountScheduled(Window(today, sel), b.daysOfWeek))
  {
    if SameMonth(sel, today) {
      SameMonthBudgetCharge(b, today, sel);
    } else {
      CrossMonthBudgetCharge(b, today, sel);
    }
  }

  /** Budgets that do not auto-create never add to the projection. */
  lemma {:induction false} ManualBudgetsCostNothing(bs: seq<DailyBudget>, today: Date, sel: Date)
    requires ValidDate(today) && ValidDate(sel)
    requires forall i :: 0 <= i < |bs| ==> !bs[i].autoCreate
    ensures DailyBudgetExpenses(bs, today, sel) == 0.0
    decreases |bs|
  {
    if bs != [] {
      ManualBudgetsCostNothing(bs[..|bs| - 1], today, sel);
    }
  }

  /** When the selected day lies in a later month, the fixed expenses depend
      only on its day of month: which later month it is does not matter. */
  lemma {:induction false} FixedIgnoresLaterMonth(ps: seq<RecurringPayment>, today: Date, sel1: Date, sel2: Date)
    requires !SameMonth(sel1, today) && !SameMonth(sel2, today) && sel1.day == sel2.day
    ensures FixedExpenses(ps, today, sel1) == FixedExpenses(ps, today, sel2)
    decreases |ps|
  {
    if ps != [] {
      FixedIgnoresLaterMonth(ps[..|ps| - 1], today, sel1, sel2);
    }
  }

  predicate NonNegativeAmounts(ps: seq<RecurringPayment>, bs: seq<DailyBudget>) {
    (forall i :: 0 <= i < |ps| ==> ps[i].amount >= 0.0)
    && (forall i, j :: 0 <= i < |bs| && 0 <= j < |bs[i].items| ==> bs[i].items[j].amount >= 0.0)
  }

  lemma {:induction false} ItemsTotalNonNegative(items: seq<DailyBudgetItem>)
    requires forall j :: 0 <= j < |items| ==> items[j].amount >= 0.0
    ensures ItemsTotal(items) >= 0.0
    decreases |items|
  {
    if items != [] {
      ItemsTotalNonNegative(items[..|items| - 1]);
    }
  }

  lemma {:induction false} RunChargeNonNegative(y: int, m: int, lo: int, hi: int, days: seq<int>, perDay: real)
    requires 0 <= m < 12 && perDay >= 0.0
    ensures RunCharge(y, m, lo, hi, days, perDay) >= 0.0
    decreases hi - lo
  {
    if lo <= hi {
      RunChargeNonNegative(y, m, lo, hi - 1, days, perDay);
    }
  }

  lemma {:induction false} FixedNonNegative(ps: seq<RecurringPayment>, today: Date, sel: Date)
    requires forall i :: 0 <= i < |ps| ==> ps[i].amount >= 0.0
    ensures FixedExpenses(ps, today, sel) >= 0.0
    decreases |ps|
  {
    if ps != [] {
      FixedNonNegative(ps[..|ps| - 1], today, sel);
    }
  }

  lemma {:induction false} DailyNonNegative(bs: seq<DailyBudget>, today: Date, sel: Date)
    requires ValidDate(today) && ValidDate(sel)
    requires forall i, j :: 0 <= i < |bs| && 0 <= j < |bs[i].items| ==> bs[i].items[j].amount >= 0.0
    ensures DailyBudgetExpenses(bs, today, sel) >= 0.0
    decreases |bs|
  {
    if bs != [] {
      var b := bs[|bs| - 1];
      DailyNonNegative(bs[..|bs| - 1], today, sel);
      ItemsTotalNonNegative(b.items);
      var per := ItemsTotal(b.items);
      RunChargeNonNegative(sel.year, sel.month, today.day, sel.day, b.daysOfWeek, per);
      RunChargeNonNegative(today.year, today.month, today.day, DaysInMonth(today.year, today.month), b.daysOfWeek, per);
      RunChargeNonNegative(sel.year, sel.month, 1, sel.day, b.daysOfWeek, per);
    }
  }

  /** With no negative amounts the projected balance never exceeds the
      current one. */
  lemma AvailableAtMostBalance(balance: real, ps: seq<RecurringPayment>, bs: seq<DailyBudget>, today: Date, sel: Date)
    requires ValidDate(today) && ValidDate(sel) && NonNegativeAmounts(ps, bs)
    ensures Project(balance, ps, bs, today, sel).availableBalance <= balance
    ensures Project(balance, ps, bs, today, sel).totalExpenses >= 0.0
  {
    FixedNonNegative(ps, today, sel);
    DailyNonNegative(bs, today, sel);
  }

  /** Whenever the selected instant is not before now, the code as written
      and the corrected projection give the same figures. */
  lemma AsWrittenAgreesFromNow(balance: real, ps: seq<RecurringPayment>, bs: seq<DailyBudget>, now: Instant, sel: Instant)
    requires ValidInstant(now) && ValidInstant(sel) && !InstantBefore(sel, now)
    ensures ProjectAsWritten(balance, ps, bs, now, sel) == Project(balance, ps, bs, now.date, sel.date)
  {
  }

  /** Picking today on the calendar gives today's midnight, which is before
      any later moment of today: the code as written then projects nothing,
      whatever falls due today. */
  lemma AsWrittenDropsToday(balance: real, ps: seq<RecurringPayment>, bs: seq<DailyBudget>, now: Instant)
    requires ValidInstant(now) && now.millis > 0
    ensures ProjectAsWritten(balance, ps, bs, now, Instant(now.date, 0)) == Unchanged(balance)
  {
  }

  /** The corrected projection charges a payment due today when today is
      selected. */
  lemma ProjectCoversToday(balance: real, p: RecurringPayment, today: Date)
    requires ValidDate(today) && p.dayOfMonth == today.day
    ensures Project(balance, [p], [], today, today).fixedExpenses == p.amount
    ensures Project(balance, [p], [], today, today).availableBalance == balance - p.amount
  {
    assert [p][..0] == [];
    assert FixedExpenses([p], today, today) == PaymentCharge(p, today, today);
    assert DailyBudgetExpenses([], today, today) == 0.0;
  }
}

=== FILE: budgets_page.dfy ===
/** The budgets page: spending per budget category, matched without regard
    to letter case, the over-budget / warning / on-track tier, and the
    weekday caption of a daily budget. */
module BudgetsPage {
  import opened Types
  import opened Text
  import opened Sorting
  import Grouping
  import Ledger

  /** `expensesByCategory`: expense totals keyed by lower-cased category. */
  function ExpensesByCategory(txs: seq<Transaction>): seq<Grouping.Entry> {
    Grouping.GroupExpenses(txs, ToLower)
  }

  datatype BudgetStatus = BudgetStatus(
    budget: Budget,
    spent: real,
    percentage: real,
    isOverBudget: bool,
    remaining: real)

  /** One element of `budgetStatus`. */
  function StatusOf(b: Budget, byCategory: seq<Grouping.Entry>): BudgetStatus
    requires b.limit > 0.0
  {
    var spent := Grouping.Lookup(byCategory, ToLower(b.category));
    BudgetStatus(b, spent, spent / b.limit * 100.0, spent > b.limit, b.limit - spent)
  }

  /** The expenses a budget counts: those whose category equals the budget's
      category once both are lower-cased. */
  function MatchingExpenses(txs: seq<Transaction>, category: string): seq<Transaction> {
    Grouping.WithKey(Ledger.OfKind(txs, Expense), ToLower, ToLower(category))
  }

  /** `budgets.map(budget => ...)`: each budget with what was spent on its
      category, its percentage, whether it is exceeded and what remains. */
  function BudgetStatuses(budgets: seq<Budget>, txs: seq<Transaction>): (r: seq<BudgetStatus>)
    requires forall i :: 0 <= i < |budgets| ==> budgets[i].limit > 0.0
    ensures |r| == |budgets|
    ensures forall i :: 0 <= i < |r| ==> r[i].budget == budgets[i]
    ensures forall i :: 0 <= i < |r| ==>
      r[i].spent == Ledger.SumAmounts(MatchingExpenses(txs, budgets[i].category))
    ensures forall i :: 0 <= i < |r| ==> (r[i].isOverBudget <==> r[i].spent > budgets[i].limit)
    ensures forall i :: 0 <= i < |r| ==> r[i].spent + r[i].remaining == budgets[i].limit
  {
    var byCategory := ExpensesByCategory(txs);
    Grouping.GroupExpensesSpec(txs, ToLower);
    seq(|budgets|, i requires 0 <= i < |budgets| => StatusOf(budgets[i], byCategory))
  }

  /** A budget whose category no expense matches has spent nothing. */
  lemma UnmatchedBudgetSpendsNothing(b: Budget, txs: seq<Transaction>)
    requires b.limit > 0.0
    requires forall t :: t in txs && t.kind == Expense ==> ToLower(t.category) != ToLower(b.category)
    ensures StatusOf(b, ExpensesByCategory(txs)).spent == 0.0
    ensures !StatusOf(b, ExpensesByCategory(txs)).isOverBudget
  {
    Grouping.GroupExpensesSpec(txs, ToLower);
    var xs := Ledger.OfKind(txs, Expense);
    assert forall i :: 0 <= i < |xs| ==> ToLower(xs[i].category) != ToLower(b.category) by {
      forall i | 0 <= i < |xs| ensures ToLower(xs[i].category) != ToLower(b.category) {
        assert xs[i] in txs && xs[i].kind == Expense;
      }
    }
    Grouping.WithKeyNone(xs, ToLower, ToLower(b.category));
  }

  datatype Tier = OverBudget | Warning | OnTrack

  /** The icon and message colour: red when over, yellow above 80 %, else
      green. */
  function TierOf(s: BudgetStatus): Tier {
    if s.isOverBudget then OverBudget
    else if s.percentage > 80.0 then Warning
    else OnTrack
  }

  lemma PercentageAbove(spent: real, limit: real, bound: real)
    requires limit > 0.0
    ensures spent / limit * 100.0 > bound <==> spent * 100.0 > bound * limit
  {
    var p := spent / limit;
    assert p * limit == spent;
    assert p * 100.0 > bound <==> p * 100.0 * limit > bound * limit;
  }

  /** The tiers in terms of money: over budget exactly when more than the
      limit was spent, warning exactly when more than 80 % but not more than
      the limit was spent, on track otherwise. */
  lemma TierBySpending(b: Budget, byCategory: seq<Grouping.Entry>)
    requires b.limit > 0.0
    ensures var s := StatusOf(b, byCategory);
      && (TierOf(s) == OverBudget <==> s.spent > b.limit)
      && (TierOf(s) == Warning <==> 5.0 * s.spent > 4.0 * b.limit && s.spent <= b.limit)
      && (TierOf(s) == OnTrack <==> 5.0 * s.spent <= 4.0 * b.limit)
  {
    var s := StatusOf(b, byCategory);
    PercentageAbove(s.spent, b.limit, 80.0);
  }

  /** `Math.min(budget.percentage, 100)`: the filled part of the bar. */
  function Progress(s: BudgetStatus): (p: real)
    ensures p <= 100.0 && p <= s.percentage
    ensures p == 100.0 || p == s.percentage
  {
    if s.percentage < 100.0 then s.percentage else 100.0
  }

  /** The bar is full exactly when the whole limit has been spent. */
  lemma ProgressFullIffLimitReached(b: Budget, byCategory: seq<Grouping.Entry>)
    requires b.limit > 0.0
    ensures var s := StatusOf(b, byCategory); Progress(s) == 100.0 <==> s.spent >= b.limit
  {
    var s := StatusOf(b, byCategory);
    PercentageAbove(s.spent, b.limit, 100.0);
    var p := s.spent / b.limit;
    assert p * b.limit == s.spent;
    if s.spent == b.limit {
      assert (p - 1.0) * b.limit == 0.0;
    }
  }

  /** Lower-casing merges categories that differ only in case. */
  lemma CaseInsensitiveMatch(txs: seq<Transaction>, b: Budget, t: Transaction)
    requires b.limit > 0.0
    requires t.kind == Expense
    ensures MatchingExpenses(txs + [t], b.category)
      == MatchingExpenses(txs, b.category) + (if ToLower(t.category) == ToLower(b.category) then [t] else [])
  {
    Ledger.OfKindConcat(txs, [t], Expense);
    assert Ledger.OfKind([t], Expense) == [t] by {
      assert [t][..0] == [];
    }
    var xs := Ledger.OfKind(txs, Expense);
    assert (xs + [t])[..|xs|] == xs;
  }

  // ---- daily-budget weekday caption ----

  /** The one-letter names of `DAYS_OF_WEEK`; an unknown id renders as the
      empty string (`undefined` inside `join`). */
  function ShortDayName(d: int): string {
    if d == 0 then "D"
    else if d == 1 then "L"
    else if d == 2 then "M"
    else if d == 3 then "X"
    else if d == 4 then "J"
    else if d == 5 then "V"
    else if d == 6 then "S"
    else ""
  }

  /** `getDaysText`: the days in ascending order, by short name, comma
      separated. */
  function DaysText(days: seq<int>): string {
    var sorted := SortDays(days);
    Join(seq(|sorted|, i requires 0 <= i < |sorted| => ShortDayName(sorted[i])), ", ")
  }

  /** The caption lists the days in ascending order whatever order they were
      picked in. */
  lemma DaysTextIgnoresOrder(a: seq<int>, b: seq<int>)
    requires multiset(a) == multiset(b)
    ensures DaysText(a) == DaysText(b)
  {
    SortDaysSpec(a);
    SortDaysSpec(b);
    SortedUnique(SortDays(a), SortDays(b));
  }
}

=== FILE: calendar.dfy ===
/** The proleptic Gregorian calendar as the browser's local `Date` sees it:
    months are numbered 0..11 (as `getMonth` returns them), days 1..31, and
    weekdays 0..6 with Sunday = 0 (as `getDay` returns them). */
module Calendar {

  datatype Date = Date(year: int, month: int, day: int)

  /** A point in time: a calendar day plus the milliseconds elapsed since its
      local midnight. */
  datatype Instant = Instant(date: Date, millis: int)

  const MillisPerDay: int := 86_400_000

  predicate IsLeapYear(y: int) {
    y % 4 == 0 && (y % 100 != 0 || y % 400 == 0)
  }

  /** `new Date(y, m + 1, 0).getDate()`: the last day of month m of year y. */
  function DaysInMonth(y: int, m: int): (n: int)
    requires 0 <= m < 12
    ensures 28 <= n <= 31
    ensures n == 29 <==> m == 1 && IsLeapYear(y)
    ensures n == 28 <==> m == 1 && !IsLeapYear(y)
    ensures n == 30 <==> m == 3 || m == 5 || m == 8 || m == 10
  {
    if m == 1 then (if IsLeapYear(y) then 29 else 28)
    else if m == 3 || m == 5 || m == 8 || m == 10 then 30
    else 31
  }

  predicate ValidDate(d: Date) {
    0 <= d.month < 12 && 1 <= d.day <= DaysInMonth(d.year, d.month)
  }

  predicate ValidInstant(t: Instant) {
    ValidDate(t.date) && 0 <= t.millis < MillisPerDay
  }

  predicate SameMonth(a: Date, b: Date) {
    a.year == b.year && a.month == b.month
  }

  /** Strict chronological order of calendar days. */
  predicate DateBefore(a: Date, b: Date) {
    a.year < b.year
    || (a.year == b.year && a.month < b.month)
    || (a.year == b.year && a.month == b.month && a.day < b.day)
  }

  /** `a < b` on two JavaScript `Date` objects. */
  predicate InstantBefore(a: Instant, b: Instant) {
    DateBefore(a.date, b.date) || (a.date == b.date && a.millis < b.millis)
  }

  /** The day after d. */
  function NextDay(d: Date): (r: Date)
    requires ValidDate(d)
    ensures ValidDate(r)
    ensures DateBefore(d, r)
  {
    if d.day < DaysInMonth(d.year, d.month) then Date(d.year, d.month, d.day + 1)
    else if d.month < 11 then Date(d.year, d.month + 1, 1)
    else Date(d.year + 1, 0, 1)
  }

  function MonthOffset(m: int): int
    requires 0 <= m < 12
  {
    [0, 3, 2, 5, 0, 3, 5, 1, 4, 6, 2, 4][m]
  }

  /** Days counted by the Gregorian leap rules up to the end of year y. */
  function YearTerm(y: int): int {
    y + y / 4 - y / 100 + y / 400
  }

  /** `new Date(y, m, d).getDay()` (Sakamoto's method; Dafny's `/` and `%`
      round towards minus infinity for a positive divisor, so it holds for
      every year). */
  function Weekday(d: Date): (w: int)
    requires 0 <= d.month < 12
    ensures 0 <= w < 7
  {
    var y := if d.month < 2 then d.year - 1 else d.year;
    (YearTerm(y) + MonthOffset(d.month) + d.day) % 7
  }

  lemma DivStep(y: int)
    ensures y / 4 - (y - 1) / 4 == if y % 4 == 0 then 1 else 0
    ensures y / 100 - (y - 1) / 100 == if y % 100 == 0 then 1 else 0
    ensures y / 400 - (y - 1) / 400 == if y % 400 == 0 then 1 else 0
  {
  }

  lemma Div400Div100(y: int)
    ensures y % 400 == 0 ==> y % 100 == 0
  {
    if y % 400 == 0 {
      var q := y / 400;
      assert y == 100 * (4 * q);
    }
  }

  lemma Div100Div4(y: int)
    ensures y % 100 == 0 ==> y % 4 == 0
  {
    if y % 100 == 0 {
      var q := y / 100;
      assert y == 4 * (25 * q);
    }
  }

  lemma YearTermStep(y: int)
    ensures YearTerm(y) - YearTerm(y - 1) == if IsLeapYear(y) then 2 else 1
  {
    DivStep(y);
    Div400Div100(y);
    Div100Div4(y);
    var a := if y % 4 == 0 then 1 else 0;
    var b := if y % 100 == 0 then 1 else 0;
    var c := if y % 400 == 0 then 1 else 0;
    assert YearTerm(y) - YearTerm(y - 1) == 1 + a - b + c;
  }

  /** Shifting by a multiple of seven keeps the weekday. */
  lemma ModShift(x: int, k: int)
    ensures (x + 7 * k) % 7 == x % 7
  {
  }

  lemma ModSucc(x: int)
    ensures (x % 7 + 1) % 7 == (x + 1) % 7
  {
  }

  /** Month m (other than February) is a whole number of weeks plus the
      difference of the month offsets. */
  lemma MonthOffsetStep(y: int, m: int)
    requires 0 <= m < 11 && m != 1
    ensures MonthOffset(m + 1) - MonthOffset(m) - DaysInMonth(y, m) == -28 || MonthOffset(m + 1) - MonthOffset(m) - DaysInMonth(y, m) == -35
  {
  }

  /** The Sakamoto sum whose remainder modulo 7 is the weekday. */
  function WeekdaySum(d: Date): int
    requires 0 <= d.month < 12
  {
    var y := if d.month < 2 then d.year - 1 else d.year;
    YearTerm(y) + MonthOffset(d.month) + d.day
  }

  lemma WeekdayIsSumMod(d: Date)
    requires 0 <= d.month < 12
    ensures Weekday(d) == WeekdaySum(d) % 7
  {
  }

  /** Two dates whose sums differ by one plus whole weeks fall on
      consecutive weekdays. */
  lemma ConsecutiveWeekdays(d: Date, n: Date, k: int)
    requires 0 <= d.month < 12 && 0 <= n.month < 12
    requires WeekdaySum(n) == WeekdaySum(d) + 1 + 7 * k
    ensures Weekday(n) == (Weekday(d) + 1) % 7
  {
    WeekdayIsSumMod(d);
    WeekdayIsSumMod(n);
    ModShift(WeekdaySum(d) + 1, k);
    ModSucc(WeekdaySum(d));
  }

  lemma FebruaryEndSum(d: Date)
    requires ValidDate(d) && d.month == 1 && d.day == DaysInMonth(d.year, 1)
    ensures WeekdaySum(Date(d.year, 2, 1)) == WeekdaySum(d) + 1 + 7 * (-4)
  {
    YearTermStep(d.year);
  }

  lemma MonthEndSum(d: Date)
    requires ValidDate(d) && d.month < 11 && d.month != 1 && d.day == DaysInMonth(d.year, d.month)
    ensures WeekdaySum(Date(d.year, d.month + 1, 1)) == WeekdaySum(d) + 1 + 7 * (-4)
         || WeekdaySum(Date(d.year, d.month + 1, 1)) == WeekdaySum(d) + 1 + 7 * (-5)
  {
    MonthOffsetStep(d.year, d.month);
  }

  lemma YearEndSum(d: Date)
    requires ValidDate(d) && d.month == 11 && d.day == 31
    ensures WeekdaySum(Date(d.year + 1, 0, 1)) == WeekdaySum(d) + 1 + 7 * (-5)
  {
  }

  /** The weekday formula agrees with the month lengths: the day after any
      valid date falls on the next weekday. With `WeekdayAnchor` this pins
      the formula down to the real calendar. */
  lemma WeekdayOfNextDay(d: Date)
    requires ValidDate(d)
    ensures Weekday(NextDay(d)) == (Weekday(d) + 1) % 7
  {
    var n := NextDay(d);
    if d.day < DaysInMonth(d.year, d.month) {
      ConsecutiveWeekdays(d, n, 0);
    } else if d.month == 1 {
      FebruaryEndSum(d);
      ConsecutiveWeekdays(d, n, -4);
    } else if d.month < 11 {
      MonthEndSum(d);
      if WeekdaySum(n) == WeekdaySum(d) + 1 + 7 * (-4) {
        ConsecutiveWeekdays(d, n, -4);
      } else {
        ConsecutiveWeekdays(d, n, -5);
      }
    } else {
      YearEndSum(d);
      ConsecutiveWeekdays(d, n, -5);
    }
  }

  /** 10 October 2026 is a Saturday. */
  lemma WeekdayAnchor()
    ensures Weekday(Date(2026, 9, 10)) == 6
  {
  }
}

=== FILE: daily_budget_form.dfy ===
/** The daily-budget dialog: the item list editor, the weekday toggles, the
    values loaded when the dialog opens, and the validation and payload of
    its submit. */
module DailyBudgetForm {
  import opened Wrappers
  import opened Types
  import opened Text
  import opened Sorting
  import Lists

  /** What the dialog holds between renders. */
  datatype FormState = FormState(
    name: string,
    category: string,
    description: string,
    selectedDays: seq<int>,
    autoCreate: bool,
    selectedAccount: string,
    items: seq<DailyBudgetItem>)

  /** An empty item row. */
  function BlankItem(id: string): DailyBudgetItem {
    DailyBudgetItem(id, "", 0.0, "", "")
  }

  /** The fields of a daily budget the submit sends (the store assigns the
      id of a new one). */
  datatype Draft = Draft(
    name: string,
    category: string,
    limit: real,
    daysOfWeek: seq<int>,
    description: Option<string>,
    items: seq<DailyBudgetItem>,
    autoCreate: bool,
    accountId: Option<string>)

  datatype Refusal = NoDaySelected | NoValidItem

  /** What a submit does: refuse with a message and save nothing, add a new
      budget, or update the edited one. */
  datatype Outcome = Refused(reason: Refusal) | Add(draft: Draft) | Update(id: string, draft: Draft)

  // ---------------------------------------------------------------------
  // Loading.

  /** `s || ""` on an optional string. */
  function OrEmpty(s: Option<string>): (r: string)
    ensures s.Some? ==> r == s.value
    ensures s == None ==> r == ""
  {
    if s.Some? then s.value else ""
  }

  /** `s || undefined`: the empty string is sent as no value. */
  function NonEmpty(s: string): (r: Option<string>)
    ensures r == None <==> s == ""
    ensures r.Some? ==> r.value == s
  {
    if s == "" then None else Some(s)
  }

  /** The load effect: the edited budget's values, or a blank form with one
      empty item. An edited budget without items also gets one empty item. */
  function Load(editing: Option<DailyBudget>): (s: FormState)
    ensures |s.items| >= 1
    ensures editing == None ==> s == FormState("", "", "", [], false, "", [BlankItem("1")])
    ensures editing.Some? ==> s.name == editing.value.name && s.category == editing.value.category
    ensures editing.Some? ==> s.selectedDays == editing.value.daysOfWeek && s.autoCreate == editing.value.autoCreate
    ensures editing.Some? ==> (editing.value.description.Some? ==> s.description == editing.value.description.value)
    ensures editing.Some? ==> (editing.value.description == None ==> s.description == "")
    ensures editing.Some? ==> (editing.value.accountId.Some? ==> s.selectedAccount == editing.value.accountId.value)
    ensures editing.Some? ==> (editing.value.accountId == None ==> s.selectedAccount == "")
    ensures editing.Some? && |editing.value.items| > 0 ==> s.items == editing.value.items
    ensures editing.Some? && |editing.value.items| == 0 ==> s.items == [BlankItem("1")]
  {
    match editing
    case None => FormState("", "", "", [], false, "", [BlankItem("1")])
    case Some(b) =>
      FormState(b.name, b.category, OrEmpty(b.description), b.daysOfWeek, b.autoCreate,
        OrEmpty(b.accountId), if |b.items| > 0 then b.items else [BlankItem("1")])
  }

  // ---------------------------------------------------------------------
  // Submitting.

  /** `item.name.trim() && item.amount > 0`: the trimmed name is non-empty
      exactly when the name is not all whitespace (`TrimmedNameIffNotBlank`). */
  predicate ValidItem(item: DailyBudgetItem) {
    !IsBlank(item.name) && item.amount > 0.0
  }

  /** `items.filter(...)` with the item test. */
  function ValidItems(items: seq<DailyBudgetItem>): (r: seq<DailyBudgetItem>)
    ensures |r| <= |items|
    ensures forall i :: 0 <= i < |r| ==> ValidItem(r[i]) && r[i] in items
    ensures forall it :: it in items && ValidItem(it) ==> it in r
  {
    if items == [] then []
    else ValidItems(items[..|items| - 1]) + (if ValidItem(items[|items| - 1]) then [items[|items| - 1]] else [])
  }

  /** `handleSubmit`: a weekday must be chosen, then at least one item must
      have a name and a positive amount; the saved items are the valid ones
      and the limit is their total. `editing` is the id of the edited budget.
      The caption of the day picker sorts the held day list in place on every
      render, so by the time the form can be submitted the list it sends is
      the ascending arrangement of the chosen days. */
  function Submit(s: FormState, editing: Option<string>): (o: Outcome)
    ensures s.selectedDays == [] <==> o == Refused(NoDaySelected)
    ensures o == Refused(NoValidItem) <==> s.selectedDays != [] && forall i :: 0 <= i < |s.items| ==> !ValidItem(s.items[i])
    ensures o.Add? <==> !o.Refused? && editing == None
    ensures o.Update? ==> editing == Some(o.id)
    ensures !o.Refused? ==> o.draft.items == ValidItems(s.items) && o.draft.items != []
    ensures !o.Refused? ==> o.draft.limit == ItemsTotal(o.draft.items) && o.draft.limit > 0.0
    ensures !o.Refused? ==> Sorted(o.draft.daysOfWeek) && multiset(o.draft.daysOfWeek) == multiset(s.selectedDays)
    ensures !o.Refused? ==> o.draft.name == s.name && o.draft.category == s.category && o.draft.autoCreate == s.autoCreate
    ensures !o.Refused? ==> (o.draft.description == None <==> s.description == "")
    ensures !o.Refused? && s.description != "" ==> o.draft.description == Some(s.description)
    ensures !o.Refused? ==> (o.draft.accountId == None <==> s.selectedAccount == "")
    ensures !o.Refused? && s.selectedAccount != "" ==> o.draft.accountId == Some(s.selectedAccount)
  {
    if s.selectedDays == [] then Refused(NoDaySelected)
    else
      var valid := ValidItems(s.items);
      if valid == [] then
        NoValidItemIffAllInvalid(s.items);
        Refused(NoValidItem)
      else
        NoValidItemIffAllInvalid(s.items);
        ValidTotalPositive(valid);
        SortDaysSpec(s.selectedDays);
        var d := Draft(s.name, s.category, ItemsTotal(valid), SortDays(s.selectedDays), NonEmpty(s.description),
          valid, s.autoCreate, NonEmpty(s.selectedAccount));
        if editing.Some? then Update(editing.value, d) else Add(d)
  }

  lemma NoValidItemIffAllInvalid(items: seq<DailyBudgetItem>)
    ensures ValidItems(items) == [] <==> forall i :: 0 <= i < |items| ==> !ValidItem(items[i])
  {
    if ValidItems(items) != [] {
      var r := ValidItems(items);
      assert r[0] in items;
    }
  }

  /** Items that all pass the test add up to a positive total. */
  lemma {:induction false} ValidTotalPositive(items: seq<DailyBudgetItem>)
    requires items != [] && forall i :: 0 <= i < |items| ==> ValidItem(items[i])
    ensures ItemsTotal(items) > 0.0
    decreases |items|
  {
    if |items| > 1 {
      ValidTotalPositive(items[..|items| - 1]);
    }
  }

  /** The filter keeps the original order: filtering a concatenation is
      concatenating the filtered parts. */
  lemma {:induction false} ValidItemsConcat(a: seq<DailyBudgetItem>, b: seq<DailyBudgetItem>)
    ensures ValidItems(a + b) == ValidItems(a) + ValidItems(b)
    decreases |b|
  {
    if b != [] {
      assert (a + b)[..|a + b| - 1] == a + b[..|b| - 1];
      ValidItemsConcat(a, b[..|b| - 1]);
    } else {
      assert a + b == a;
    }
  }

  /** The item test reads the trimmed name: a name of spaces does not make
      an item valid. */
  lemma TrimmedNameIffNotBlank(item: DailyBudgetItem)
    ensures ValidItem(item) <==> Trim(item.name) != [] && item.amount > 0.0
  {
    TrimEmptyIffBlank(item.name);
  }

  lemma {:induction false} ItemsTotalConcat(a: seq<DailyBudgetItem>, b: seq<DailyBudgetItem>)
    ensures ItemsTotal(a + b) == ItemsTotal(a) + ItemsTotal(b)
    decreases |b|
  {
    if b != [] {
      assert (a + b)[..|a + b| - 1] == a + b[..|b| - 1];
      ItemsTotalConcat(a, b[..|b| - 1]);
    } else {
      assert a + b == a;
    }
  }

  lemma KeepValidLast(items: seq<DailyBudgetItem>)
    requires items != [] && ValidItem(items[|items| - 1])
    ensures ValidItems(items) == ValidItems(items[..|items| - 1]) + [items[|items| - 1]]
  {
  }

  /** When every row passes the test the filter keeps them all. */
  lemma {:induction false} AllValidKept(items: seq<DailyBudgetItem>)
    requires forall i :: 0 <= i < |items| ==> ValidItem(items[i])
    ensures ValidItems(items) == items
    decreases |items|
  {
    if items != [] {
      var init := items[..|items| - 1];
      var last := items[|items| - 1];
      forall i | 0 <= i < |init| ensures ValidItem(init[i]) {
        assert init[i] == items[i];
      }
      AllValidKept(init);
      KeepValidLast(items);
      assert items == init + [last];
    }
  }

  /** The total the dialog displays counts every row; the saved limit only
      the valid ones. With no negative amounts the limit never exceeds the
      displayed total. */
  lemma {:induction false} LimitAtMostDisplayed(items: seq<DailyBudgetItem>)
    requires forall i :: 0 <= i < |items| ==> items[i].amount >= 0.0
    ensures ItemsTotal(ValidItems(items)) <= ItemsTotal(items)
    decreases |items|
  {
    if items != [] {
      var init := items[..|items| - 1];
      var last := items[|items| - 1];
      LimitAtMostDisplayed(init);
      var tail := if ValidItem(last) then [last] else [];
      ItemsTotalConcat(ValidItems(init), tail);
      assert ItemsTotal([last]) == last.amount by { assert [last][..0] == []; }
      assert ItemsTotal(tail) <= last.amount;
    }
  }

  /** Opening the dialog on a budget and submitting it unchanged sends the
      same budget back with its days in ascending order, when its items are
      all valid, its limit is their total, and its optional texts are not
      empty strings; a budget whose days are already ascending comes back
      exactly. */
  lemma LoadSubmitRoundTrip(b: DailyBudget)
    requires b.daysOfWeek != [] && b.items != []
    requires forall i :: 0 <= i < |b.items| ==> ValidItem(b.items[i])
    requires b.limit == ItemsTotal(b.items)
    requires b.description != Some("") && b.accountId != Some("")
    ensures Submit(Load(Some(b)), Some(b.id))
      == Update(b.id, Draft(b.name, b.category, b.limit, SortDays(b.daysOfWeek), b.description, b.items, b.autoCreate, b.accountId))
    ensures Sorted(b.daysOfWeek) ==> (Submit(Load(Some(b)), Some(b.id))
      == Update(b.id, Draft(b.name, b.category, b.limit, b.daysOfWeek, b.description, b.items, b.autoCreate, b.accountId)))
  {
    if Sorted(b.daysOfWeek) {
      SortKeepsSorted(b.daysOfWeek);
    }
    AllValidKept(b.items);
    var s := Load(Some(b));
    assert s.items == b.items;
    assert NonEmpty(s.description) == b.description;
    assert NonEmpty(s.selectedAccount) == b.accountId;
  }

  lemma TickFiveThenOne()
    ensures ToggleDay(ToggleDay([], 5), 1) == [5, 1]
  {
    assert ToggleDay([], 5) == [5];
  }

  lemma OnlyAscendingFiveOne(sent: seq<int>)
    requires Sorted(sent) && multiset(sent) == multiset([5, 1])
    ensures sent == [1, 5]
  {
    assert multiset([1, 5]) == multiset([5, 1]);
    SortedUnique(sent, [1, 5]);
  }

  /** Ticking Friday and then Monday holds [5, 1], and the submit sends
      [1, 5]. */
  lemma TickedDaysSentAscending(s: FormState)
    requires s.selectedDays == ToggleDay(ToggleDay([], 5), 1)
    requires exists i :: 0 <= i < |s.items| && ValidItem(s.items[i])
    ensures s.selectedDays == [5, 1]
    ensures !Submit(s, None).Refused?
    ensures Submit(s, None).draft.daysOfWeek == [1, 5]
  {
    TickFiveThenOne();
    NoValidItemIffAllInvalid(s.items);
    OnlyAscendingFiveOne(Submit(s, None).draft.daysOfWeek);
  }

  // ---------------------------------------------------------------------
  // Editing the weekdays and the item list.

  /** `toggleDay`: drop the day if chosen, append it otherwise. */
  function ToggleDay(days: seq<int>, d: int): (r: seq<int>)
    ensures d in r <==> d !in days
    ensures forall x :: x != d ==> (x in r <==> x in days)
    ensures d !in days ==> r == days + [d]
  {
    if d in days then Lists.RemoveAll(days, d) else days + [d]
  }

  /** Toggling a day twice restores which days are chosen, and restores the
      list itself when the day was not chosen before. */
  lemma ToggleTwice(days: seq<int>, d: int)
    ensures forall x :: x in ToggleDay(ToggleDay(days, d), d) <==> x in days
    ensures d !in days ==> ToggleDay(ToggleDay(days, d), d) == days
  {
    if d !in days {
      var once := days + [d];
      assert Lists.RemoveAll(once, d) == Lists.RemoveAll(days, d);
    }
  }

  /** `addItem`: one empty row whose id is the new length, in decimal. */
  function AddItem(items: seq<DailyBudgetItem>): (r: seq<DailyBudgetItem>)
    ensures |r| == |items| + 1 && r[..|items|] == items
    ensures r[|items|] == BlankItem(NatToString(|items| + 1))
    ensures DigitsValue(r[|items|].id) == |items| + 1
    ensures r[|items|].name == "" && r[|items|].amount == 0.0
  {
    NatToStringRoundTrip(|items| + 1);
    items + [BlankItem(NatToString(|items| + 1))]
  }

  /** `removeItem`: drops every row with the id, but never from a list of
      one row. */
  function RemoveItem(items: seq<DailyBudgetItem>, id: string): (r: seq<DailyBudgetItem>)
    ensures |items| <= 1 ==> r == items
    ensures |items| > 1 ==> forall i :: 0 <= i < |r| ==> r[i].id != id
    ensures |items| > 1 ==> forall it :: it in items && it.id != id ==> it in r
    ensures forall it :: it in r ==> it in items
    ensures |items| > 1 ==> r == DropId(items, id)
  {
    if |items| > 1 then DropId(items, id) else items
  }

  function DropId(items: seq<DailyBudgetItem>, id: string): (r: seq<DailyBudgetItem>)
    ensures forall i :: 0 <= i < |r| ==> r[i].id != id && r[i] in items
    ensures forall it :: it in items && it.id != id ==> it in r
  {
    if items == [] then []
    else DropId(items[..|items| - 1], id) + (if items[|items| - 1].id != id then [items[|items| - 1]] else [])
  }

  /** `filter` looks at one row at a time: a row is kept exactly when its id
      differs. */
  lemma DropIdSingleton(id: string)
    ensures forall it :: DropId([it], id) == if it.id == id then [] else [it]
  {
    forall it ensures DropId([it], id) == if it.id == id then [] else [it] {
      assert [it][..0] == [];
    }
  }

  /** `filter` keeps order and every copy: dropping from a concatenation
      concatenates the parts. */
  lemma {:induction false} DropIdConcat(a: seq<DailyBudgetItem>, b: seq<DailyBudgetItem>, id: string)
    ensures DropId(a + b, id) == DropId(a, id) + DropId(b, id)
    decreases |b|
  {
    if b == [] {
      assert a + b == a;
    } else {
      assert (a + b)[..|a + b| - 1] == a + b[..|b| - 1];
      DropIdConcat(a, b[..|b| - 1], id);
    }
  }

  /** Appending one row to the list extends what is kept by that row
      exactly when it does not carry the id. */
  lemma DropIdSnoc(rows: seq<DailyBudgetItem>, it: DailyBudgetItem, id: string)
    ensures DropId(rows + [it], id) == DropId(rows, id) + (if it.id == id then [] else [it])
  {
    DropIdSingleton(id);
    DropIdConcat(rows, [it], id);
  }

  /** Two identical rows that do not carry the id both stay, behind the
      dropped row. */
  lemma DuplicateRowsKept(gone: DailyBudgetItem, kept: DailyBudgetItem, id: string)
    requires gone.id == id && kept.id != id
    ensures RemoveItem([gone, kept, kept], id) == [kept, kept]
  {
    DropIdSnoc([], gone, id);
    assert [] + [gone] == [gone];
    DropIdSnoc([gone], kept, id);
    assert [gone] + [kept] == [gone, kept];
    DropIdSnoc([gone, kept], kept, id);
    assert [gone, kept] + [kept] == [gone, kept, kept];
  }





  lemma ThreeRowsAdded()
    ensures AddItem(AddItem(AddItem([]))) == [BlankItem("1"), BlankItem("2"), BlankItem("3")]
  {
    assert NatToString(1) == "1";
    assert NatToString(2) == "2";
    assert NatToString(3) == "3";
    var one := AddItem([]);
    assert one == [BlankItem("1")];
    var two := AddItem(one);
    assert two == [BlankItem("1"), BlankItem("2")];
  }

  lemma FirstRowRemoved()
    ensures RemoveItem([BlankItem("1"), BlankItem("2"), BlankItem("3")], "1") == [BlankItem("2"), BlankItem("3")]
  {
    var three := [BlankItem("1"), BlankItem("2"), BlankItem("3")];
    assert three[..2] == [BlankItem("1"), BlankItem("2")];
    assert three[..2][..1] == [BlankItem("1")];
    assert DropId([BlankItem("1")], "1") == [] by {
      assert [BlankItem("1")][..0] == [];
    }
    assert DropId(three[..2], "1") == [BlankItem("2")];
  }

  lemma RowAddedAfterRemoval()
    ensures AddItem([BlankItem("2"), BlankItem("3")]) == [BlankItem("2"), BlankItem("3"), BlankItem("3")]
  {
    assert NatToString(3) == "3";
  }

  lemma DuplicateIdRemoved()
    ensures RemoveItem([BlankItem("2"), BlankItem("3"), BlankItem("3")], "3") == [BlankItem("2")]
  {
    var again := [BlankItem("2"), BlankItem("3"), BlankItem("3")];
    var two := [BlankItem("2"), BlankItem("3")];
    assert again[..2] == two;
    assert two[..1] == [BlankItem("2")];
    assert DropId([BlankItem("2")], "3") == [BlankItem("2")] by {
      assert [BlankItem("2")][..0] == [];
    }
    assert DropId(two, "3") == [BlankItem("2")];
  }

  /** Ids are positions at the time a row was added, so after a removal the
      next row can take an id already in use, and removing by that id then
      drops both rows. */
  lemma IdsCollideAfterRemoval()
    ensures var three := AddItem(AddItem(AddItem([])));
      var two := RemoveItem(three, "1");
      var again := AddItem(two);
      again[1].id == again[2].id == "3" && RemoveItem(again, "3") == [again[0]]
  {
    ThreeRowsAdded();
    FirstRowRemoved();
    RowAddedAfterRemoval();
    DuplicateIdRemoved();
  }

  /** Which field an edit writes, with the value the input produced. The
      amount input sends `parseFloat(value) || 0`, so a blank field is 0. */
  datatype ItemEdit = SetName(name: string) | SetAmount(amount: NumField) | SetCategory(category: string) | SetDescription(description: string)

  function AmountOf(f: NumField): (x: real)
    ensures f == Blank ==> x == 0.0
    ensures f.Num? ==> x == f.value
  {
    match f
    case Blank => 0.0
    case Num(v) => v
  }

  /** One edit of one row: the edited field takes the new value, every other
      field and the id stay. */
  function Apply(item: DailyBudgetItem, e: ItemEdit): (r: DailyBudgetItem)
    ensures r.id == item.id
    ensures e.SetName? ==> r.name == e.name
    ensures e.SetAmount? ==> r.amount == AmountOf(e.amount)
    ensures e.SetCategory? ==> r.category == e.category
    ensures e.SetDescription? ==> r.description == e.description
    ensures !e.SetName? ==> r.name == item.name
    ensures !e.SetAmount? ==> r.amount == item.amount
    ensures !e.SetCategory? ==> r.category == item.category
    ensures !e.SetDescription? ==> r.description == item.description
  {
    match e
    case SetName(n) => item.(name := n)
    case SetAmount(a) => item.(amount := AmountOf(a))
    case SetCategory(c) => item.(category := c)
    case SetDescription(d) => item.(description := d)
  }

  /** `updateItem`: the rows with the id get the edit, the others and the
      length stay. */
  function UpdateItem(items: seq<DailyBudgetItem>, id: string, e: ItemEdit): (r: seq<DailyBudgetItem>)
    ensures |r| == |items|
    ensures forall i :: 0 <= i < |items| ==> r[i] == if items[i].id == id then Apply(items[i], e) else items[i]
  {
    seq(|items|, i requires 0 <= i < |items| => if items[i].id == id then Apply(items[i], e) else items[i])
  }
}

=== FILE: edit_transaction.dfy ===
/** The dialog that edits one transaction: the values it starts from, the
    type switch, and the chain of checks in front of the update it sends. */
module EditTransaction {
  import opened Wrappers
  import opened Calendar
  import opened Types

  /** The account select's placeholder value, also used when the edited
      transaction has no account. */
  const NoAccounts: string := "no-accounts"

  /** The dialog's fields. The amount is a number input; the date picker
      can be cleared (`None`). */
  datatype EditState = EditState(
    amount: NumField,
    kind: TxKind,
    category: string,
    description: string,
    date: Option<Date>,
    account: string)

  /** The update sent for the transaction. */
  datatype Update = Update(
    id: string,
    kind: TxKind,
    amount: real,
    category: string,
    date: Date,
    description: string,
    accountId: string)

  datatype Refusal = InvalidAmount | CategoryRequired | AccountRequired

  /** `Wait`: the financial data has not arrived, so the submit returns
      without a message. */
  datatype Outcome = Wait | Refused(reason: Refusal) | Send(update: Update)

  /** `transaction.accountId || 'no-accounts'`: an empty id is falsy too. */
  function InitialAccount(accountId: Option<string>): (a: string)
    ensures a == NoAccounts <==> accountId == None || accountId == Some("") || accountId == Some(NoAccounts)
    ensures a != NoAccounts ==> accountId == Some(a)
  {
    if accountId.Some? && accountId.value != "" then accountId.value else NoAccounts
  }

  /** The initial field values: the transaction's own. */
  function Load(t: Transaction): (s: EditState)
    ensures s.amount == Num(t.amount) && s.kind == t.kind && s.category == t.category
    ensures s.description == t.description && s.date == Some(t.date)
    ensures s.account == InitialAccount(t.accountId)
  {
    EditState(Num(t.amount), t.kind, t.category, t.description, Some(t.date), InitialAccount(t.accountId))
  }

  /** The type select only sets the type; the category chosen for the
      other type stays selected. */
  function SetType(s: EditState, k: TxKind): (r: EditState)
    ensures r.kind == k
    ensures r.(kind := s.kind) == s
  {
    s.(kind := k)
  }

  /** `!amount || parseFloat(amount) <= 0`. */
  predicate BadAmount(f: NumField) {
    f == Blank || f.value <= 0.0
  }

  /** `handleSubmit` for transaction `id` at date `today`, `loaded` being
      whether the financial data has arrived. The checks run in the order
      amount, category, account, and only the first failure is reported. */
  function Submit(s: EditState, loaded: bool, id: string, today: Date): (o: Outcome)
    ensures o == Wait <==> !loaded
    ensures o == Refused(InvalidAmount) <==> loaded && BadAmount(s.amount)
    ensures o == Refused(CategoryRequired) <==> loaded && !BadAmount(s.amount) && s.category == ""
    ensures o == Refused(AccountRequired)
      <==> (loaded && !BadAmount(s.amount) && s.category != "" && s.account == NoAccounts)
    ensures o.Send? ==> o.update.id == id && o.update.amount == s.amount.value && o.update.amount > 0.0
    ensures o.Send? ==> o.update.kind == s.kind && o.update.category == s.category
    ensures o.Send? ==> o.update.description == s.description && o.update.accountId == s.account
    ensures o.Send? ==> o.update.date == (if s.date.Some? then s.date.value else today)
  {
    if !loaded then Wait
    else if BadAmount(s.amount) then Refused(InvalidAmount)
    else if s.category == "" then Refused(CategoryRequired)
    else if s.account == NoAccounts then Refused(AccountRequired)
    else Send(Update(id, s.kind, s.amount.value, s.category, s.date.GetOr(today), s.description, s.account))
  }

  /** Submitting a freshly opened dialog sends the transaction back as it
      is, when its amount is positive, its category set and its account
      real. */
  lemma LoadSubmitRoundTrip(t: Transaction, today: Date)
    requires t.amount > 0.0 && t.category != ""
    requires t.accountId.Some? && t.accountId.value != "" && t.accountId.value != NoAccounts
    ensures Submit(Load(t), true, t.id, today)
      == Send(Update(t.id, t.kind, t.amount, t.category, t.date, t.description, t.accountId.value))
  {
  }

  /** A transaction stored without an account cannot be saved until an
      account is picked, whatever else is valid. */
  lemma MissingAccountBlocks(t: Transaction, today: Date)
    requires t.amount > 0.0 && t.category != "" && t.accountId == None
    ensures Submit(Load(t), true, t.id, today) == Refused(AccountRequired)
  {
  }

  /** Switching the type never changes which check fails; a sent update
      differs only in its type. */
  lemma SetTypeKeepsChecks(s: EditState, k: TxKind, loaded: bool, id: string, today: Date)
    ensures Submit(SetType(s, k), loaded, id, today).Refused? == Submit(s, loaded, id, today).Refused?
    ensures Submit(s, loaded, id, today).Refused?
      ==> Submit(SetType(s, k), loaded, id, today) == Submit(s, loaded, id, today)
    ensures Submit(s, loaded, id, today).Send?
      ==> Submit(SetType(s, k), loaded, id, today).update == Submit(s, loaded, id, today).update.(kind := k)
  {
  }

  /** An income category such as "Salario" survives a switch to expense and
      is sent with the expense, although the expense list does not offer
      it. */
  lemma CategoryKeptAcrossTypes(s: EditState, id: string, today: Date)
    requires s.kind == Income && s.category == "Salario"
    requires !BadAmount(s.amount) && s.account != NoAccounts
    ensures Submit(SetType(s, Expense), true, id, today).Send?
    ensures Submit(SetType(s, Expense), true, id, today).update.category == "Salario"
    ensures Submit(SetType(s, Expense), true, id, today).update.kind == Expense
  {
  }
}

=== FILE: expense_chart.dfy ===
/** The expense chart: one bar per category, with exact (case-sensitive)
    category names. */
module ExpenseChart {
  import opened Types
  import Grouping
  import Ledger
  import Text
  import Calendar
  import Wrappers
  import BudgetsPage

  function Identity(s: string): string {
    s
  }

  /** `expenseData`, and through `Object.entries(...).map`, `chartData`:
      the entries in order of first appearance. */
  function ChartData(txs: seq<Transaction>): seq<Grouping.Entry> {
    Grouping.GroupExpenses(txs, Identity)
  }

  /** One bar per distinct expense category, each the sum of that category's
      expense amounts, the bars adding up to the total expenses. */
  lemma ChartDataSpec(txs: seq<Transaction>)
    ensures Grouping.DistinctNames(ChartData(txs))
    ensures forall c :: (c in Grouping.Names(ChartData(txs))
      <==> exists t :: t in txs && t.kind == Expense && t.category == c)
    ensures forall c :: (Grouping.Lookup(ChartData(txs), c)
      == Ledger.SumAmounts(Grouping.WithKey(Ledger.OfKind(txs, Expense), Identity, c)))
    ensures Grouping.SumEntries(ChartData(txs)) == Ledger.TotalExpenses(txs)
  {
    Grouping.GroupExpensesSpec(txs, Identity);
  }

  /** Two expenses whose categories differ only in case. */
  function FoodTxs(): seq<Transaction> {
    [Transaction("1", Expense, 10.0, Calendar.Date(2025, 0, 1), "Food", "", Wrappers.None),
     Transaction("2", Expense, 5.0, Calendar.Date(2025, 0, 2), "food", "", Wrappers.None)]
  }

  /** Both transactions of the example are expenses, so the chart and the
      budgets page see both. */
  lemma FoodAllExpenses()
    ensures Ledger.OfKind(FoodTxs(), Expense) == FoodTxs()
  {
    var txs := FoodTxs();
    assert txs[..1] == [txs[0]];
    assert txs[..1][..0] == [];
  }

  /** The chart half of CaseSensitivityDiffers: exact categories, two bars. */
  lemma ChartKeepsBoth()
    ensures |ChartData(FoodTxs())| == 2
  {
    var txs := FoodTxs();
    FoodAllExpenses();
    assert txs[..1] == [txs[0]];
    assert txs[..1][..0] == [];
    var food := Grouping.Entry("Food", 10.0);
    assert Grouping.Tally([txs[0]], Identity) == [food];
    assert Grouping.AddTo([food], "food", 5.0) == [food] + Grouping.AddTo([], "food", 5.0);
  }

  /** The budgets-page half of CaseSensitivityDiffers: lower-cased
      categories, one entry. */
  lemma BudgetsMerge()
    ensures |BudgetsPage.ExpensesByCategory(FoodTxs())| == 1
  {
    var txs := FoodTxs();
    FoodAllExpenses();
    assert txs[..1] == [txs[0]];
    assert txs[..1][..0] == [];
    assert Text.ToLower("Food") == "food" by {
      assert Text.LowerChar('F') == 'f';
    }
    assert Text.ToLower("food") == "food";
    var lowered := Grouping.Entry("food", 10.0);
    assert Grouping.Tally([txs[0]], Text.ToLower) == [lowered];
    assert Grouping.AddTo([lowered], "food", 5.0) == [Grouping.Entry("food", 15.0)];
  }

  /** "Food" and "food" are two bars on the chart but one category on the
      budgets page. */
  lemma CaseSensitivityDiffers()
    ensures |ChartData(FoodTxs())| == 2 && |BudgetsPage.ExpensesByCategory(FoodTxs())| == 1
  {
    ChartKeepsBoth();
    BudgetsMerge();
  }
}

=== FILE: fixture.dfy ===
/** The mock data source: seventeen transactions over the previous and the
    current month, four recurring payments, eight budgets, and the balance
    folded from the transactions. */
module Fixture {
  import opened Wrappers
  import opened Calendar
  import opened Types
  import Ledger

  /** `new Date(year, month - 1, day)`: month -1 rolls back into December
      of the previous year. */
  function PreviousMonth(year: int, month: int, day: int): (d: Date)
    requires 0 <= month < 12
    ensures 0 <= d.month < 12 && d.day == day
    ensures month > 0 ==> d == Date(year, month - 1, day)
    ensures month == 0 ==> d == Date(year - 1, 11, day)
  {
    if month == 0 then Date(year - 1, 11, day) else Date(year, month - 1, day)
  }

  function Tx(id: string, kind: TxKind, amount: real, date: Date, category: string, description: string): Transaction {
    Transaction(id, kind, amount, date, category, description, None)
  }

  /** The transactions of `getFinancialData` for a current month `month`
      (0-based) of `year`. */
  function Transactions(year: int, month: int): (txs: seq<Transaction>)
    requires 0 <= month < 12
    ensures |txs| == 17
  {
    [ Tx("1", Income, 16875.0, PreviousMonth(year, month, 1), "Salary", "Monthly Salary"),
      Tx("2", Expense, 4500.0, PreviousMonth(year, month, 2), "Rent", "Apartment Rent"),
      Tx("3", Expense, 320.63, PreviousMonth(year, month, 3), "Groceries", "Weekly Groceries"),
      Tx("4", Expense, 187.50, PreviousMonth(year, month, 5), "Transport", "Gasoline"),
      Tx("5", Expense, 59.96, PreviousMonth(year, month, 10), "Subscriptions", "Streaming Service"),
      Tx("6", Expense, 450.0, PreviousMonth(year, month, 15), "Entertainment", "Concert Tickets"),
      Tx("7", Expense, 282.0, PreviousMonth(year, month, 20), "Utilities", "Electricity Bill"),
      Tx("8", Expense, 168.75, PreviousMonth(year, month, 22), "Dining Out", "Dinner with friends"),
      Tx("9", Income, 1125.0, PreviousMonth(year, month, 25), "Freelance", "Web design project"),
      Tx("10", Income, 16875.0, Date(year, month, 1), "Salary", "Monthly Salary"),
      Tx("11", Expense, 4500.0, Date(year, month, 2), "Rent", "Apartment Rent"),
      Tx("12", Expense, 346.13, Date(year, month, 4), "Groceries", "Weekly Groceries"),
      Tx("13", Expense, 84.38, Date(year, month, 5), "Subscriptions", "Music Streaming"),
      Tx("14", Expense, 243.75, Date(year, month, 7), "Transport", "Public transport pass"),
      Tx("15", Expense, 3187.50, Date(year, month, 8), "Shopping", "New Laptop - unusually high"),
      Tx("16", Expense, 209.06, Date(year, month, 11), "Dining Out", "Lunch meeting"),
      Tx("17", Expense, 412.50, Date(year, month, 12), "Groceries", "Bulk shopping") ]
  }

  function Payment(id: string, name: string, amount: real, dayOfMonth: int, category: string): RecurringPayment {
    RecurringPayment(id, name, amount, category, dayOfMonth, Absent, None, Absent)
  }

  const RecurringPayments: seq<RecurringPayment> := [
    Payment("rp1", "Rent", 4500.0, 2, "Housing"),
    Payment("rp2", "Internet Bill", 225.0, 15, "Utilities"),
    Payment("rp3", "Gym Membership", 150.0, 20, "Health"),
    Payment("rp4", "Streaming Service", 59.96, 10, "Subscriptions")
  ]

  const Budgets: seq<Budget> := [
    Budget("b1", "Groceries", 1500.0, true),
    Budget("b2", "Transport", 562.50, true),
    Budget("b3", "Entertainment", 750.0, true),
    Budget("b4", "Dining Out", 937.50, true),
    Budget("b5", "Shopping", 1125.0, true),
    Budget("b6", "Subscriptions", 187.50, true),
    Budget("b7", "Utilities", 562.50, true),
    Budget("b8", "Rent", 4500.0, true)
  ]

  /** Every transaction amount is positive, every date is a real calendar
      day, and every recurring payment falls on a day 1..31. */
  lemma FixtureWellFormed(year: int, month: int)
    requires 0 <= month < 12
    ensures Ledger.AllPositive(Transactions(year, month))
    ensures forall i :: 0 <= i < 17 ==> ValidDate(Transactions(year, month)[i].date)
    ensures forall i :: 0 <= i < |RecurringPayments| ==> 1 <= RecurringPayments[i].dayOfMonth <= 31
    ensures forall i :: 0 <= i < |Budgets| ==> Budgets[i].limit > 0.0
  {
    var txs := Transactions(year, month);
    forall i | 0 <= i < 17 ensures ValidDate(txs[i].date) {
      assert 1 <= txs[i].date.day <= 25;
      assert DaysInMonth(txs[i].date.year, txs[i].date.month) >= 28;
    }
  }

  lemma BalancePrefixStep(txs: seq<Transaction>, n: nat)
    requires 0 < n <= |txs|
    ensures Ledger.Balance(txs[..n]) == Ledger.Balance(txs[..n - 1]) + Ledger.Signed(txs[n - 1])
  {
    assert txs[..n][..n - 1] == txs[..n - 1];
  }

  /** The previous month's nine transactions leave 12031.16. */
  lemma PreviousMonthBalance(year: int, month: int)
    requires 0 <= month < 12
    ensures Ledger.Balance(Transactions(year, month)[..9]) == 12031.16
  {
    var txs := Transactions(year, month);
    assert txs[..0] == [];
    BalancePrefixStep(txs, 1);
    BalancePrefixStep(txs, 2);
    BalancePrefixStep(txs, 3);
    BalancePrefixStep(txs, 4);
    BalancePrefixStep(txs, 5);
    BalancePrefixStep(txs, 6);
    BalancePrefixStep(txs, 7);
    BalancePrefixStep(txs, 8);
    BalancePrefixStep(txs, 9);
  }

  /** The balance `getFinancialData` reports: 34875 of income less
      14952.16 of expenses, whatever the month. */
  lemma FixtureBalance(year: int, month: int)
    requires 0 <= month < 12
    ensures Ledger.Balance(Transactions(year, month)) == 19922.84
  {
    var txs := Transactions(year, month);
    PreviousMonthBalance(year, month);
    BalancePrefixStep(txs, 10);
    BalancePrefixStep(txs, 11);
    BalancePrefixStep(txs, 12);
    BalancePrefixStep(txs, 13);
    BalancePrefixStep(txs, 14);
    BalancePrefixStep(txs, 15);
    BalancePrefixStep(txs, 16);
    BalancePrefixStep(txs, 17);
    assert txs[..17] == txs;
  }
}

=== FILE: grouping.dfy ===
/** Per-category expense totals, built the way the pages build a
    `Record<string, number>` with `reduce`: one entry per key in order of
    first appearance, each holding the running sum of its amounts. The key
    of a transaction is its category passed through a normaliser (the
    budgets page lower-cases it, the expense chart keeps it as is). */
module Grouping {
  import opened Types
  import Ledger

  datatype Entry = Entry(name: string, total: real)

  function Names(es: seq<Entry>): set<string> {
    set i | 0 <= i < |es| :: es[i].name
  }

  predicate DistinctNames(es: seq<Entry>) {
    forall i, j :: 0 <= i < j < |es| ==> es[i].name != es[j].name
  }

  /** `acc[k] || 0`: the running total under k, 0 when k has none. */
  function Lookup(es: seq<Entry>, k: string): real {
    if es == [] then 0.0
    else if es[0].name == k then es[0].total
    else Lookup(es[1..], k)
  }

  lemma NamesCons(e: Entry, es: seq<Entry>)
    ensures Names([e] + es) == {e.name} + Names(es)
  {
    var s := [e] + es;
    forall n | n in Names(s) ensures n in {e.name} + Names(es) {
      var i :| 0 <= i < |s| && s[i].name == n;
      if i > 0 { assert es[i - 1].name == n; }
    }
    forall n | n in Names(es) ensures n in Names(s) {
      var i :| 0 <= i < |es| && es[i].name == n;
      assert s[i + 1].name == n;
    }
    assert s[0].name == e.name;
  }

  /** `acc[k] = (acc[k] || 0) + amount`: adds to k's total, or appends k. */
  function AddTo(es: seq<Entry>, k: string, amount: real): (r: seq<Entry>)
    ensures Names(r) == Names(es) + {k}
  {
    if es == [] then
      NamesCons(Entry(k, amount), []);
      assert [Entry(k, amount)] + [] == [Entry(k, amount)];
      [Entry(k, amount)]
    else
      NamesCons(es[0], es[1..]);
      assert es == [es[0]] + es[1..];
      if es[0].name == k then
        NamesCons(Entry(k, es[0].total + amount), es[1..]);
        [Entry(k, es[0].total + amount)] + es[1..]
      else
        var rest := AddTo(es[1..], k, amount);
        NamesCons(es[0], rest);
        [es[0]] + rest
  }

  /** The grand total of the entries. */
  function SumEntries(es: seq<Entry>): real {
    if es == [] then 0.0 else es[0].total + SumEntries(es[1..])
  }

  /** The reduce over already-filtered transactions. */
  function Tally(txs: seq<Transaction>, normalize: string -> string): seq<Entry> {
    if txs == [] then []
    else
      var t := txs[|txs| - 1];
      AddTo(Tally(txs[..|txs| - 1], normalize), normalize(t.category), t.amount)
  }

  /** `transactions.filter(t => t.type === 'expense').reduce(...)`. */
  function GroupExpenses(txs: seq<Transaction>, normalize: string -> string): seq<Entry> {
    Tally(Ledger.OfKind(txs, Expense), normalize)
  }

  /** Reference definition: the transactions whose normalised category is k. */
  function WithKey(txs: seq<Transaction>, normalize: string -> string, k: string): (r: seq<Transaction>)
    ensures forall i :: 0 <= i < |r| ==> normalize(r[i].category) == k && r[i] in txs
    ensures forall t :: t in txs && normalize(t.category) == k ==> t in r
  {
    if txs == [] then []
    else
      var t := txs[|txs| - 1];
      WithKey(txs[..|txs| - 1], normalize, k) + (if normalize(t.category) == k then [t] else [])
  }

  lemma {:induction false} WithKeyNone(txs: seq<Transaction>, normalize: string -> string, k: string)
    requires forall i :: 0 <= i < |txs| ==> normalize(txs[i].category) != k
    ensures WithKey(txs, normalize, k) == []
    decreases |txs|
  {
    if txs != [] {
      WithKeyNone(txs[..|txs| - 1], normalize, k);
    }
  }

  lemma {:induction false} AddToLookup(es: seq<Entry>, k: string, amount: real, j: string)
    ensures Lookup(AddTo(es, k, amount), j) == Lookup(es, j) + (if j == k then amount else 0.0)
    decreases |es|
  {
    if es != [] && es[0].name != k {
      AddToLookup(es[1..], k, amount, j);
    }
  }

  lemma {:induction false} AddToDistinct(es: seq<Entry>, k: string, amount: real)
    requires DistinctNames(es)
    ensures DistinctNames(AddTo(es, k, amount))
    decreases |es|
  {
    if es != [] && es[0].name != k {
      AddToDistinct(es[1..], k, amount);
      var r := AddTo(es, k, amount);
      forall i, j | 0 <= i < j < |r| ensures r[i].name != r[j].name {
        if i == 0 {
          assert r[j].name in Names(AddTo(es[1..], k, amount));
          assert r[j].name in Names(es[1..]) + {k};
          if r[j].name != k {
            var m :| 0 <= m < |es[1..]| && es[1..][m].name == r[j].name;
            assert es[m + 1].name == r[j].name;
          }
        }
      }
    }
  }

  lemma {:induction false} AddToSum(es: seq<Entry>, k: string, amount: real)
    ensures SumEntries(AddTo(es, k, amount)) == SumEntries(es) + amount
    decreases |es|
  {
    if es != [] && es[0].name != k {
      AddToSum(es[1..], k, amount);
    }
  }

  /** Each key's entry is the sum of the amounts of the transactions with that
      key, and a key without transactions reads as 0. */
  lemma {:induction false} TallyLookup(txs: seq<Transaction>, normalize: string -> string, k: string)
    ensures Lookup(Tally(txs, normalize), k) == Ledger.SumAmounts(WithKey(txs, normalize, k))
    decreases |txs|
  {
    if txs != [] {
      var init := txs[..|txs| - 1];
      var t := txs[|txs| - 1];
      TallyLookup(init, normalize, k);
      AddToLookup(Tally(init, normalize), normalize(t.category), t.amount, k);
      var w := WithKey(init, normalize, k);
      if normalize(t.category) == k {
        assert (w + [t])[..|w + [t]| - 1] == w;
      } else {
        assert w + [] == w;
      }
    }
  }

  /** The distinct normalised categories of the transactions. */
  function Keys(txs: seq<Transaction>, normalize: string -> string): set<string> {
    set i | 0 <= i < |txs| :: normalize(txs[i].category)
  }

  lemma KeysSnoc(txs: seq<Transaction>, normalize: string -> string)
    requires txs != []
    ensures Keys(txs, normalize)
      == Keys(txs[..|txs| - 1], normalize) + {normalize(txs[|txs| - 1].category)}
  {
    var init := txs[..|txs| - 1];
    var keys := Keys(txs, normalize);
    var initKeys := Keys(init, normalize);
    forall n | n in keys ensures n in initKeys + {normalize(txs[|txs| - 1].category)} {
      var i :| 0 <= i < |txs| && normalize(txs[i].category) == n;
      if i < |init| { assert init[i] == txs[i]; }
    }
    forall n | n in initKeys ensures n in keys {
      var i :| 0 <= i < |init| && normalize(init[i].category) == n;
      assert txs[i] == init[i];
    }
  }

  /** There is exactly one entry per distinct key. */
  lemma {:induction false} TallyNames(txs: seq<Transaction>, normalize: string -> string)
    ensures DistinctNames(Tally(txs, normalize))
    ensures Names(Tally(txs, normalize)) == Keys(txs, normalize)
    decreases |txs|
  {
    if txs != [] {
      var init := txs[..|txs| - 1];
      TallyNames(init, normalize);
      AddToDistinct(Tally(init, normalize), normalize(txs[|txs| - 1].category), txs[|txs| - 1].amount);
      KeysSnoc(txs, normalize);
    } else {
      assert Keys(txs, normalize) == {};
    }
  }

  /** The entries add up to the sum of all the amounts. */
  lemma {:induction false} TallySum(txs: seq<Transaction>, normalize: string -> string)
    ensures SumEntries(Tally(txs, normalize)) == Ledger.SumAmounts(txs)
    decreases |txs|
  {
    if txs != [] {
      TallySum(txs[..|txs| - 1], normalize);
      AddToSum(Tally(txs[..|txs| - 1], normalize), normalize(txs[|txs| - 1].category), txs[|txs| - 1].amount);
    }
  }

  /** A key comes from the expenses exactly when some expense has it. */
  lemma ExpenseKey(txs: seq<Transaction>, normalize: string -> string, k: string)
    ensures k in Keys(Ledger.OfKind(txs, Expense), normalize)
      <==> exists t :: t in txs && t.kind == Expense && normalize(t.category) == k
  {
    var xs := Ledger.OfKind(txs, Expense);
    if exists t :: t in txs && t.kind == Expense && normalize(t.category) == k {
      var t :| t in txs && t.kind == Expense && normalize(t.category) == k;
      var i :| 0 <= i < |xs| && xs[i] == t;
      assert normalize(xs[i].category) == k;
    }
    if k in Keys(xs, normalize) {
      var i :| 0 <= i < |xs| && normalize(xs[i].category) == k;
      assert xs[i] in txs && xs[i].kind == Expense;
    }
  }

  /** The whole contract of the expense grouping: one entry per distinct
      normalised category of an expense, each the sum of that category's
      expense amounts, all of them adding up to the total expenses. */
  lemma GroupExpensesSpec(txs: seq<Transaction>, normalize: string -> string)
    ensures DistinctNames(GroupExpenses(txs, normalize))
    ensures forall k :: (k in Names(GroupExpenses(txs, normalize))
      <==> exists t :: t in txs && t.kind == Expense && normalize(t.category) == k)
    ensures forall k :: (Lookup(GroupExpenses(txs, normalize), k)
      == Ledger.SumAmounts(WithKey(Ledger.OfKind(txs, Expense), normalize, k)))
    ensures SumEntries(GroupExpenses(txs, normalize)) == Ledger.TotalExpenses(txs)
  {
    var xs := Ledger.OfKind(txs, Expense);
    TallyNames(xs, normalize);
    TallySum(xs, normalize);
    forall k ensures Lookup(GroupExpenses(txs, normalize), k) == Ledger.SumAmounts(WithKey(xs, normalize, k)) {
      TallyLookup(xs, normalize, k);
    }
    forall k ensures k in Names(GroupExpenses(txs, normalize))
      <==> exists t :: t in txs && t.kind == Expense && normalize(t.category) == k
    {
      ExpenseKey(txs, normalize, k);
    }
  }
}

=== FILE: ledger.dfy ===
/** The ledger folds: the signed running balance of the mock data source and
    the income, expense and upcoming-payment totals and the per-account
    breakdown of the overview cards. */
module Ledger {
  import opened Types

  /** The effect of one transaction on the balance. */
  function Signed(t: Transaction): real {
    if t.kind == Income then t.amount else -t.amount
  }

  /** `transactions.reduce((acc, t) => t.type === 'income' ? acc + t.amount
      : acc - t.amount, 0)`, folded from the left. */
  function Balance(txs: seq<Transaction>): real {
    if txs == [] then 0.0 else Balance(txs[..|txs| - 1]) + Signed(txs[|txs| - 1])
  }

  /** `transactions.filter(t => t.type === kind)`. */
  function OfKind(txs: seq<Transaction>, kind: TxKind): (r: seq<Transaction>)
    ensures |r| <= |txs|
    ensures forall i :: 0 <= i < |r| ==> r[i].kind == kind && r[i] in txs
    ensures forall t :: t in txs && t.kind == kind ==> t in r
  {
    if txs == [] then []
    else OfKind(txs[..|txs| - 1], kind) + (if txs[|txs| - 1].kind == kind then [txs[|txs| - 1]] else [])
  }

  /** `.reduce((sum, t) => sum + t.amount, 0)`. */
  function SumAmounts(txs: seq<Transaction>): real {
    if txs == [] then 0.0 else SumAmounts(txs[..|txs| - 1]) + txs[|txs| - 1].amount
  }

  function TotalIncome(txs: seq<Transaction>): real {
    SumAmounts(OfKind(txs, Income))
  }

  function TotalExpenses(txs: seq<Transaction>): real {
    SumAmounts(OfKind(txs, Expense))
  }

  predicate AllPositive(txs: seq<Transaction>) {
    forall i :: 0 <= i < |txs| ==> txs[i].amount > 0.0
  }

  lemma {:induction false} SumAmountsConcat(a: seq<Transaction>, b: seq<Transaction>)
    ensures SumAmounts(a + b) == SumAmounts(a) + SumAmounts(b)
    decreases |b|
  {
    if b != [] {
      assert (a + b)[..|a + b| - 1] == a + b[..|b| - 1];
      SumAmountsConcat(a, b[..|b| - 1]);
    } else {
      assert a + b == a;
    }
  }

  lemma {:induction false} OfKindConcat(a: seq<Transaction>, b: seq<Transaction>, kind: TxKind)
    ensures OfKind(a + b, kind) == OfKind(a, kind) + OfKind(b, kind)
    decreases |b|
  {
    if b != [] {
      assert (a + b)[..|a + b| - 1] == a + b[..|b| - 1];
      OfKindConcat(a, b[..|b| - 1], kind);
    } else {
      assert a + b == a;
    }
  }

  /** Appending a transaction moves the balance by its signed amount: an
      income of a raises it by a, an expense of a lowers it by a. */
  lemma BalanceAppend(txs: seq<Transaction>, t: Transaction)
    ensures t.kind == Income ==> Balance(txs + [t]) == Balance(txs) + t.amount
    ensures t.kind == Expense ==> Balance(txs + [t]) == Balance(txs) - t.amount
  {
    assert (txs + [t])[..|txs|] == txs;
  }

  lemma {:induction false} BalanceConcat(a: seq<Transaction>, b: seq<Transaction>)
    ensures Balance(a + b) == Balance(a) + Balance(b)
    decreases |b|
  {
    if b != [] {
      assert (a + b)[..|a + b| - 1] == a + b[..|b| - 1];
      BalanceConcat(a, b[..|b| - 1]);
    } else {
      assert a + b == a;
    }
  }

  /** One more transaction adds its amount to the total of its own kind
      only. */
  lemma KindTotalStep(txs: seq<Transaction>, kind: TxKind)
    requires txs != []
    ensures SumAmounts(OfKind(txs, kind))
      == SumAmounts(OfKind(txs[..|txs| - 1], kind)) + (if txs[|txs| - 1].kind == kind then txs[|txs| - 1].amount else 0.0)
  {
    var init := txs[..|txs| - 1];
    var t := txs[|txs| - 1];
    var tail := if t.kind == kind then [t] else [];
    assert OfKind(txs, kind) == OfKind(init, kind) + tail;
    SumAmountsConcat(OfKind(init, kind), tail);
    assert SumAmounts(tail) == (if t.kind == kind then t.amount else 0.0) by {
      if t.kind == kind { assert tail[..0] == []; }
    }
  }

  /** The signed fold equals total income minus total expenses, so the
      balance card and the income/expense cards agree. */
  lemma {:induction false} BalanceIsIncomeMinusExpenses(txs: seq<Transaction>)
    ensures Balance(txs) == TotalIncome(txs) - TotalExpenses(txs)
  {
    if txs != [] {
      BalanceIsIncomeMinusExpenses(txs[..|txs| - 1]);
      KindTotalStep(txs, Income);
      KindTotalStep(txs, Expense);
    }
  }

  lemma MultisetRemoveAt(b: seq<Transaction>, i: nat)
    requires i < |b|
    ensures multiset(b[..i] + b[i + 1..]) == multiset(b) - multiset{b[i]}
  {
    var l, r := b[..i], b[i + 1..];
    assert b == l + [b[i]] + r;
    assert multiset(b) == multiset(l) + multiset{b[i]} + multiset(r);
    assert multiset(l + r) == multiset(l) + multiset(r);
  }

  lemma BalanceSingleton(t: Transaction)
    ensures Balance([t]) == Signed(t)
  {
    assert [t][..0] == [];
  }

  lemma SplitAt(b: seq<Transaction>, i: nat)
    requires i < |b|
    ensures b == (b[..i] + [b[i]]) + b[i + 1..]
  {
  }

  /** Taking out the transaction at position i removes its signed amount
      from the balance. */
  lemma BalanceRemoveAt(b: seq<Transaction>, i: nat)
    requires i < |b|
    ensures Balance(b) == Balance(b[..i] + b[i + 1..]) + Signed(b[i])
  {
    var l, t, r := b[..i], b[i], b[i + 1..];
    SplitAt(b, i);
    BalanceConcat(l + [t], r);
    BalanceConcat(l, [t]);
    BalanceSingleton(t);
    BalanceConcat(l, r);
  }

  /** The balance does not depend on the order of the transactions. */
  lemma {:induction false} BalancePermutation(a: seq<Transaction>, b: seq<Transaction>)
    requires multiset(a) == multiset(b)
    ensures Balance(a) == Balance(b)
    decreases |a|
  {
    if a != [] {
      var t := a[|a| - 1];
      var a' := a[..|a| - 1];
      assert a == a' + [t];
      assert multiset(a') == multiset(a) - multiset{t};
      assert t in multiset(b);
      var i :| 0 <= i < |b| && b[i] == t;
      MultisetRemoveAt(b, i);
      BalanceRemoveAt(b, i);
      BalancePermutation(a', b[..i] + b[i + 1..]);
    } else {
      assert |b| == |multiset(b)| == 0;
    }
  }

  /** `recurringPayments.reduce((sum, p) => sum + p.amount, 0)`. */
  function UpcomingPaymentsAmount(ps: seq<RecurringPayment>): real {
    if ps == [] then 0.0 else UpcomingPaymentsAmount(ps[..|ps| - 1]) + ps[|ps| - 1].amount
  }

  /** The upcoming-payments card sums every recurring payment, whatever its
      day of month: two lists with the same amounts give the same figure. */
  lemma {:induction false} UpcomingIgnoresSchedule(ps: seq<RecurringPayment>, qs: seq<RecurringPayment>)
    requires |ps| == |qs|
    requires forall i :: 0 <= i < |ps| ==> ps[i].amount == qs[i].amount
    ensures UpcomingPaymentsAmount(ps) == UpcomingPaymentsAmount(qs)
    decreases |ps|
  {
    if ps != [] {
      UpcomingIgnoresSchedule(ps[..|ps| - 1], qs[..|qs| - 1]);
    }
  }

  datatype Share = Share(account: Account, percentage: real)

  /** `balance / currentBalance * 100` when the total is positive, else 0. */
  function SharePercentage(balance: real, currentBalance: real): real {
    if currentBalance > 0.0 then balance / currentBalance * 100.0 else 0.0
  }

  /** `accounts.map(account => ({...account, percentage}))`. */
  function AccountBreakdown(accounts: seq<Account>, currentBalance: real): (r: seq<Share>)
    ensures |r| == |accounts|
    ensures forall i :: 0 <= i < |r| ==> r[i].account == accounts[i]
    ensures currentBalance <= 0.0 ==> forall i :: 0 <= i < |r| ==> r[i].percentage == 0.0
    ensures currentBalance > 0.0 ==> forall i :: 0 <= i < |r| ==> r[i].percentage == accounts[i].balance / currentBalance * 100.0
    ensures forall i :: 0 <= i < |r| && 0.0 <= accounts[i].balance <= currentBalance ==> 0.0 <= r[i].percentage <= 100.0
  {
    seq(|accounts|, i requires 0 <= i < |accounts| => Share(accounts[i], SharePercentage(accounts[i].balance, currentBalance)))
  }

  function SumBalances(accounts: seq<Account>): real {
    if accounts == [] then 0.0 else SumBalances(accounts[..|accounts| - 1]) + accounts[|accounts| - 1].balance
  }

  function SumPercentages(shares: seq<Share>): real {
    if shares == [] then 0.0 else SumPercentages(shares[..|shares| - 1]) + shares[|shares| - 1].percentage
  }

  lemma ScaledSum(x: real, y: real, t: real)
    requires t > 0.0
    ensures x / t * 100.0 + y / t * 100.0 == (x + y) / t * 100.0
  {
    var q := x / t;
    var p := y / t;
    assert q * t == x;
    assert p * t == y;
    assert (q + p) * t == x + y;
    assert (x + y) / t == q + p;
  }

  lemma WholeIsHundredPercent(t: real)
    requires t > 0.0
    ensures t / t * 100.0 == 100.0
  {
    var q := t / t;
    assert q * t == t;
    assert (q - 1.0) * t == 0.0;
  }

  lemma {:induction false} SumPercentagesScaled(accounts: seq<Account>, total: real)
    requires total > 0.0
    ensures SumPercentages(AccountBreakdown(accounts, total)) == SumBalances(accounts) / total * 100.0
    decreases |accounts|
  {
    if accounts != [] {
      var init := accounts[..|accounts| - 1];
      var a := accounts[|accounts| - 1];
      var r := AccountBreakdown(accounts, total);
      assert r[..|r| - 1] == AccountBreakdown(init, total);
      SumPercentagesScaled(init, total);
      ScaledSum(SumBalances(init), a.balance, total);
    }
  }

  /** When the balance card shows the sum of the account balances and it is
      positive, the per-account percentages add up to 100. */
  lemma PercentagesSumToHundred(accounts: seq<Account>)
    requires SumBalances(accounts) > 0.0
    ensures SumPercentages(AccountBreakdown(accounts, SumBalances(accounts))) == 100.0
  {
    var total := SumBalances(accounts);
    SumPercentagesScaled(accounts, total);
    WholeIsHundredPercent(total);
  }

  /** The account-type caption of the overview breakdown. */
  function OverviewTypeLabel(accountType: string): (caption: string)
    ensures accountType !in ["cash", "bcp", "interbank", "banconacion"] ==> caption == "Otro"
    ensures accountType == "cash" <==> caption == "Efectivo"
    ensures accountType == "bcp" <==> caption == "BCP"
    ensures accountType == "interbank" <==> caption == "Interbank"
    ensures accountType == "banconacion" <==> caption == "Banco de la Nación"
  {
    if accountType == "cash" then "Efectivo"
    else if accountType == "bcp" then "BCP"
    else if accountType == "interbank" then "Interbank"
    else if accountType == "banconacion" then "Banco de la Nación"
    else "Otro"
  }
}

=== FILE: migration.dfy ===
/** The two maintenance passes over the store: filling in the fields that
    older recurring payments lack, and marking pending payments older than a
    week as rejected. Each walks the records of one collection, rewrites the
    ones a test picks and counts them; the store is a map from record key to
    record, absent (`None`) when the collection does not exist. */
module Migration {
  import opened Wrappers
  import opened Types
  import opened Calendar

  /** The keys whose records the test picks. */
  function Picked<V>(m: map<string, V>, pick: V -> bool): set<string> {
    set k | k in m && pick(m[k])
  }

  /** The store after the pass: picked records rewritten, the others as
      they were. */
  function RewriteAll<V>(m: map<string, V>, pick: V -> bool, rewrite: V -> V): (r: map<string, V>)
    ensures r.Keys == m.Keys
  {
    map k | k in m :: if pick(m[k]) then rewrite(m[k]) else m[k]
  }

  /** The picked keys the loop has already visited. */
  ghost function PickedOutside<V>(m: map<string, V>, pick: V -> bool, remaining: set<string>): set<string> {
    set k | k in m && k !in remaining && pick(m[k])
  }

  /** The store once the keys outside `remaining` have been visited. */
  ghost function RewrittenOutside<V>(m: map<string, V>, pick: V -> bool, rewrite: V -> V, remaining: set<string>): map<string, V> {
    map k | k in m :: if k !in remaining && pick(m[k]) then rewrite(m[k]) else m[k]
  }

  lemma PickedOutsideStep<V>(m: map<string, V>, pick: V -> bool, remaining: set<string>, key: string)
    requires key in remaining && key in m
    ensures key !in PickedOutside(m, pick, remaining)
    ensures PickedOutside(m, pick, remaining - {key})
      == PickedOutside(m, pick, remaining) + (if pick(m[key]) then {key} else {})
  {
  }

  lemma RewrittenOutsideStep<V>(m: map<string, V>, pick: V -> bool, rewrite: V -> V, remaining: set<string>, key: string)
    requires key in remaining && key in m
    ensures pick(m[key]) ==> (RewrittenOutside(m, pick, rewrite, remaining - {key})
      == RewrittenOutside(m, pick, rewrite, remaining)[key := rewrite(m[key])])
    ensures !pick(m[key]) ==> (RewrittenOutside(m, pick, rewrite, remaining - {key})
      == RewrittenOutside(m, pick, rewrite, remaining))
  {
  }

  /** The `for (const [key, record] of Object.entries(...))` loop: one
      update and one count per picked record. */
  method RewriteWhere<V>(m: map<string, V>, pick: V -> bool, rewrite: V -> V) returns (r: map<string, V>, count: nat)
    ensures r.Keys == m.Keys
    ensures forall k :: k in m && pick(m[k]) ==> r[k] == rewrite(m[k])
    ensures forall k :: k in m && !pick(m[k]) ==> r[k] == m[k]
    ensures count == |Picked(m, pick)|
    ensures r == RewriteAll(m, pick, rewrite)
  {
    r := m;
    count := 0;
    var remaining := m.Keys;
    assert r == RewrittenOutside(m, pick, rewrite, remaining);
    assert PickedOutside(m, pick, remaining) == {};
    while remaining != {}
      invariant remaining <= m.Keys
      invariant r == RewrittenOutside(m, pick, rewrite, remaining)
      invariant count == |PickedOutside(m, pick, remaining)|
      decreases |remaining|
    {
      var key :| key in remaining;
      PickedOutsideStep(m, pick, remaining, key);
      RewrittenOutsideStep(m, pick, rewrite, remaining, key);
      remaining := remaining - {key};
      if pick(m[key]) {
        r := r[key := rewrite(m[key])];
        count := count + 1;
      }
    }
    assert PickedOutside(m, pick, remaining) == Picked(m, pick);
    assert r == RewriteAll(m, pick, rewrite);
  }

  // ---------------------------------------------------------------------
  // Recurring payments: default-filling of the weekday restriction and the
  // approval flag.

  /** A record lacks one of the two newer fields. */
  predicate NeedsMigration(p: RecurringPayment) {
    p.daysOfWeek == Absent || p.requiresApproval == Absent
  }

  /** The update the pass writes: no weekday restriction, approval required.
      Both fields are written even when only one was missing. */
  function WithDefaults(p: RecurringPayment): (r: RecurringPayment)
    ensures r.daysOfWeek == Null && r.requiresApproval == Present(true)
    ensures r.id == p.id && r.name == p.name && r.amount == p.amount
    ensures r.category == p.category && r.dayOfMonth == p.dayOfMonth && r.description == p.description
  {
    p.(daysOfWeek := Null, requiresApproval := Present(true))
  }

  /** A payment as the pass leaves it: rewritten exactly when one of the
      two fields is missing, so an explicit `requiresApproval: false` next to
      a missing weekday field becomes `true`. */
  function Migrated(p: RecurringPayment): (r: RecurringPayment)
    ensures r != p <==> NeedsMigration(p)
    ensures !NeedsMigration(r)
    ensures r.id == p.id && r.name == p.name && r.amount == p.amount
    ensures r.category == p.category && r.dayOfMonth == p.dayOfMonth && r.description == p.description
    ensures p.requiresApproval == Present(false) && p.daysOfWeek == Absent ==> r.requiresApproval == Present(true)
  {
    if NeedsMigration(p) then WithDefaults(p) else p
  }

  /** `migrateRecurringPayments`: the collection after the pass and the
      number of records updated. */
  method MigrateRecurringPayments(store: Option<map<string, RecurringPayment>>)
    returns (out: Option<map<string, RecurringPayment>>, migrated: nat)
    ensures store == None ==> out == None && migrated == 0
    ensures store.Some? ==> out.Some? && out.value.Keys == store.value.Keys
    ensures store.Some? ==> forall k :: k in store.value ==> out.value[k] == Migrated(store.value[k])
    ensures store.Some? ==> migrated == |Picked(store.value, NeedsMigration)|
    ensures store == Some(map[]) ==> out == store && migrated == 0
    ensures store.Some? ==> out == Some(RewriteAll(store.value, NeedsMigration, WithDefaults))
  {
    if store == None {
      return None, 0;
    }
    var m, n := RewriteWhere(store.value, NeedsMigration, WithDefaults);
    if store.value == map[] {
      assert Picked(store.value, NeedsMigration) == {};
    }
    return Some(m), n;
  }

  /** After one pass no record needs migrating, so a second pass counts 0
      and changes nothing. */
  lemma MigrationIdempotent(m: map<string, RecurringPayment>)
    ensures Picked(RewriteAll(m, NeedsMigration, WithDefaults), NeedsMigration) == {}
    ensures RewriteAll(RewriteAll(m, NeedsMigration, WithDefaults), NeedsMigration, WithDefaults)
      == RewriteAll(m, NeedsMigration, WithDefaults)
  {
    var once := RewriteAll(m, NeedsMigration, WithDefaults);
    forall k | k in once ensures !NeedsMigration(once[k]) {
    }
    assert Picked(once, NeedsMigration) == {};
  }

  // ---------------------------------------------------------------------
  // Pending payments: the seven-day expiry.

  const WeekMillis: int := 7 * MillisPerDay

  /** `new Date(createdAt) < sevenDaysAgo`: false for a timestamp that does
      not parse. Only the age is looked at, never the status. */
  predicate Expired(p: PendingPayment, now: int) {
    p.createdAt.Some? && p.createdAt.value < now - WeekMillis
  }

  function Rejected(p: PendingPayment): (r: PendingPayment)
    ensures r.status == Types.Rejected
    ensures r.(status := p.status) == p
  {
    p.(status := Types.Rejected)
  }

  /** `cleanupOldPendingPayments` at instant `now` (milliseconds since the
      epoch): the collection after the pass and the number of records
      marked. */
  method CleanupOldPendingPayments(store: Option<map<string, PendingPayment>>, now: int)
    returns (out: Option<map<string, PendingPayment>>, cleaned: nat)
    ensures store == None ==> out == None && cleaned == 0
    ensures store.Some? ==> out.Some? && out.value.Keys == store.value.Keys
    ensures store.Some? ==> forall k :: k in store.value ==>
      out.value[k] == (if Expired(store.value[k], now) then Rejected(store.value[k]) else store.value[k])
    ensures store.Some? ==> cleaned == |Picked(store.value, p => Expired(p, now))|
    ensures store.Some? ==> out == Some(RewriteAll(store.value, p => Expired(p, now), Rejected))
  {
    if store == None {
      return None, 0;
    }
    var m, n := RewriteWhere(store.value, p => Expired(p, now), Rejected);
    return Some(m), n;
  }

  /** Approved payments are not spared: the pass marks an old approved
      record rejected, and counts it among the records it cleaned. */
  lemma CleanupIgnoresStatus(m: map<string, PendingPayment>, k: string, now: int)
    requires k in m && m[k].status == Approved && Expired(m[k], now)
    ensures k in Picked(m, p => Expired(p, now))
    ensures RewriteAll(m, p => Expired(p, now), Rejected)[k].status == Types.Rejected
  {
  }

  /** A second pass with the same `now` changes nothing, yet reports the
      same count again: the old records are still old. */
  lemma CleanupSecondPass(m: map<string, PendingPayment>, now: int)
    ensures RewriteAll(RewriteAll(m, p => Expired(p, now), Rejected), p => Expired(p, now), Rejected)
      == RewriteAll(m, p => Expired(p, now), Rejected)
    ensures Picked(RewriteAll(m, p => Expired(p, now), Rejected), p => Expired(p, now))
      == Picked(m, p => Expired(p, now))
  {
    var once := RewriteAll(m, p => Expired(p, now), Rejected);
    forall k | k in m ensures Expired(once[k], now) == Expired(m[k], now) {
    }
  }
}

=== FILE: recurring_payment_form.dfy ===
/** The recurring-payment dialog: the values loaded when it opens, the
    weekday checkboxes, and the hand-written validation and payload of its
    submit. */
module RecurringPaymentForm {
  import opened Wrappers
  import opened Types
  import Lists

  /** What the dialog holds. The amount is a number input and the day a
      select of the days 1..31, so each is blank or the spelling of a
      number. */
  datatype FormState = FormState(
    name: string,
    amount: NumField,
    category: string,
    dayOfMonth: NumField,
    daysOfWeek: seq<int>,
    description: string,
    requiresApproval: bool)

  /** The fields of a recurring payment the submit sends. */
  datatype Draft = Draft(
    name: string,
    amount: real,
    category: string,
    dayOfMonth: int,
    daysOfWeek: Option<seq<int>>,
    description: Option<string>,
    requiresApproval: bool)

  datatype Refusal = MissingFields | DayOutOfRange

  datatype Outcome = Refused(reason: Refusal) | Add(draft: Draft) | Update(id: string, draft: Draft)

  /** `parseInt` of the spelling of a number: the integer part, truncated
      toward zero. */
  function Truncate(x: real): (n: int)
    ensures x >= 0.0 ==> n as real <= x < n as real + 1.0
    ensures x < 0.0 ==> n as real - 1.0 < x <= n as real
  {
    if x >= 0.0 then x.Floor else -((-x).Floor)
  }

  /** `daysOfWeek || []`. */
  function DaysOrEmpty(f: Field<seq<int>>): (r: seq<int>)
    ensures f.Present? ==> r == f.value
    ensures !f.Present? ==> r == []
  {
    match f
    case Present(ds) => ds
    case _ => []
  }

  /** The load effect. A payment's approval flag is kept only when it is
      exactly `false`; missing or `null` reads as `true`. */
  function Load(editing: Option<RecurringPayment>): (s: FormState)
    ensures editing == None ==> s == FormState("", Blank, "", Blank, [], "", true)
    ensures editing.Some? ==> (s.requiresApproval <==> editing.value.requiresApproval != Present(false))
    ensures editing.Some? ==> s.amount == Num(editing.value.amount) && s.dayOfMonth == Num(editing.value.dayOfMonth as real)
    ensures editing.Some? ==> s.name == editing.value.name && s.category == editing.value.category
    ensures editing.Some? ==> s.daysOfWeek == (if editing.value.daysOfWeek.Present? then editing.value.daysOfWeek.value else [])
    ensures editing.Some? ==> s.description == editing.value.description.GetOr("")
  {
    match editing
    case None => FormState("", Blank, "", Blank, [], "", true)
    case Some(p) =>
      FormState(p.name, Num(p.amount), p.category, Num(p.dayOfMonth as real), DaysOrEmpty(p.daysOfWeek),
        if p.description.Some? then p.description.value else "",
        p.requiresApproval != Present(false))
  }

  /** `handleDayOfWeekChange`: checking appends (so a day can appear
      twice), unchecking drops every occurrence. */
  function DayOfWeekChange(days: seq<int>, d: int, checked: bool): (r: seq<int>)
    ensures checked ==> r == days + [d]
    ensures !checked ==> d !in r && forall x :: x != d ==> (x in r <==> x in days)
  {
    if checked then days + [d] else Lists.RemoveAll(days, d)
  }

  /** `handleSubmit`: all four required fields must be filled, then the day
      must lie in 1..31; the amount is only checked for presence.
      `editing` is the id of the edited payment. */
  function Submit(s: FormState, editing: Option<string>): (o: Outcome)
    ensures o == Refused(MissingFields) <==> s.name == "" || s.amount == Blank || s.category == "" || s.dayOfMonth == Blank
    ensures o == Refused(DayOutOfRange)
      <==> s.name != "" && s.amount.Num? && s.category != "" && s.dayOfMonth.Num? && !(1 <= Truncate(s.dayOfMonth.value) <= 31)
    ensures o.Add? <==> !o.Refused? && editing == None
    ensures o.Update? ==> editing == Some(o.id)
    ensures !o.Refused? ==> 1 <= o.draft.dayOfMonth <= 31 && o.draft.amount == s.amount.value
    ensures !o.Refused? ==> o.draft.name == s.name && o.draft.category == s.category
    ensures !o.Refused? ==> o.draft.dayOfMonth == Truncate(s.dayOfMonth.value)
    ensures !o.Refused? ==> (o.draft.daysOfWeek == None <==> s.daysOfWeek == [])
    ensures !o.Refused? && s.daysOfWeek != [] ==> o.draft.daysOfWeek == Some(s.daysOfWeek)
    ensures !o.Refused? ==> (o.draft.description == None <==> s.description == "")
    ensures !o.Refused? && s.description != "" ==> o.draft.description == Some(s.description)
    ensures !o.Refused? ==> o.draft.requiresApproval == s.requiresApproval
  {
    if s.name == "" || s.amount == Blank || s.category == "" || s.dayOfMonth == Blank then Refused(MissingFields)
    else
      var day := Truncate(s.dayOfMonth.value);
      if day < 1 || day > 31 then Refused(DayOutOfRange)
      else
        var d := Draft(s.name, s.amount.value, s.category, day,
          if |s.daysOfWeek| > 0 then Some(s.daysOfWeek) else None,
          if s.description == "" then None else Some(s.description),
          s.requiresApproval);
        if editing.Some? then Update(editing.value, d) else Add(d)
  }

  /** An amount of 0 is filled in, so it passes and is sent as 0. */
  lemma ZeroAmountAccepted(name: string, category: string)
    requires name != "" && category != ""
    ensures Submit(FormState(name, Num(0.0), category, Num(15.0), [], "", true), None).Add?
    ensures Submit(FormState(name, Num(0.0), category, Num(15.0), [], "", true), None).draft.amount == 0.0
  {
  }

  /** Unchecking keeps the other days in the order they were checked: the
      list splits into any two parts and each part loses the day on its own. */
  lemma UncheckKeepsOrder(a: seq<int>, b: seq<int>, d: int)
    ensures DayOfWeekChange(a + b, d, false) == DayOfWeekChange(a, d, false) + DayOfWeekChange(b, d, false)
    ensures forall x :: DayOfWeekChange([x], d, false) == if x == d then [] else [x]
  {
    Lists.RemoveAllConcat(a, b, d);
    Lists.RemoveAllSingleton(d);
  }

  /** Checking a day twice lists it twice; one uncheck removes both. */
  lemma DayListedTwice(d: int)
    ensures DayOfWeekChange(DayOfWeekChange([], d, true), d, true) == [d, d]
    ensures DayOfWeekChange([d, d], d, false) == []
  {
    assert [d][..0] == [];
    assert Lists.RemoveAll([d], d) == [];
    assert [d, d][..1] == [d];
    assert Lists.RemoveAll([d, d], d) == Lists.RemoveAll([d], d);
  }

  /** Opening the dialog on a stored payment and submitting it unchanged
      sends the same payment back, when its fields are filled in, its day is
      in 1..31 and its optional fields are not empty. */
  lemma LoadSubmitRoundTrip(p: RecurringPayment)
    requires p.name != "" && p.category != "" && 1 <= p.dayOfMonth <= 31
    requires p.daysOfWeek.Present? && p.daysOfWeek.value != []
    requires p.description != Some("")
    ensures Submit(Load(Some(p)), Some(p.id))
      == Update(p.id, Draft(p.name, p.amount, p.category, p.dayOfMonth, Some(p.daysOfWeek.value),
           p.description, p.requiresApproval != Present(false)))
  {
    assert Truncate(p.dayOfMonth as real) == p.dayOfMonth;
  }
}

=== FILE: recurring_payments_form.dfy ===
/** The settings card that adds a recurring payment through a schema: four
    fields, each coerced and checked by its own rule, every failing rule
    reported, and the form reset only after a successful add. */
module RecurringPaymentsSchema {
  import opened Wrappers
  import opened Types

  /** The values the form holds: two text inputs and two number inputs. */
  datatype Values = Values(name: string, amount: NumField, dayOfMonth: NumField, category: string)

  /** What the schema hands to the add action: these four fields and no
      weekday restriction or approval flag. The day is a number, so a
      fractional day passes. */
  datatype Payload = Payload(name: string, amount: real, dayOfMonth: real, category: string)

  /** One failed rule of the schema. */
  datatype Issue = NameTooShort | AmountNotPositive | DayBelowOne | DayAboveThirtyOne | CategoryTooShort

  datatype Parsed = Invalid(issues: set<Issue>) | Valid(payload: Payload)

  const MinNameLength: nat := 2
  const MinCategoryLength: nat := 2

  /** `defaultValues`: empty texts, amount 0, day 1. */
  const Defaults: Values := Values("", Num(0.0), Num(1.0), "")

  /** `z.coerce.number()` of a number input: `Number("")` is 0. */
  function Coerce(f: NumField): (x: real)
    ensures f.Num? ==> x == f.value
    ensures f == Blank ==> x == 0.0
  {
    if f.Num? then f.value else 0.0
  }

  /** The rules that fail on these values. */
  function Issues(v: Values): (r: set<Issue>)
    ensures NameTooShort in r <==> |v.name| < MinNameLength
    ensures AmountNotPositive in r <==> Coerce(v.amount) <= 0.0
    ensures DayBelowOne in r <==> Coerce(v.dayOfMonth) < 1.0
    ensures DayAboveThirtyOne in r <==> Coerce(v.dayOfMonth) > 31.0
    ensures CategoryTooShort in r <==> |v.category| < MinCategoryLength
  {
    (if |v.name| < MinNameLength then {NameTooShort} else {})
    + (if Coerce(v.amount) <= 0.0 then {AmountNotPositive} else {})
    + (if Coerce(v.dayOfMonth) < 1.0 then {DayBelowOne} else {})
    + (if Coerce(v.dayOfMonth) > 31.0 then {DayAboveThirtyOne} else {})
    + (if |v.category| < MinCategoryLength then {CategoryTooShort} else {})
  }

  /** The schema: valid exactly when no rule fails, and then the payload is
      the coerced values. */
  function Parse(v: Values): (r: Parsed)
    ensures r.Valid? <==> |v.name| >= 2 && Coerce(v.amount) > 0.0 && 1.0 <= Coerce(v.dayOfMonth) <= 31.0
                          && |v.category| >= 2
    ensures r.Invalid? ==> r.issues == Issues(v) && r.issues != {}
    ensures r.Valid? ==> r.payload.name == v.name && r.payload.category == v.category
    ensures r.Valid? ==> r.payload.amount == Coerce(v.amount) && r.payload.dayOfMonth == Coerce(v.dayOfMonth)
  {
    var issues := Issues(v);
    if issues == {} then
      Valid(Payload(v.name, Coerce(v.amount), Coerce(v.dayOfMonth), v.category))
    else Invalid(issues)
  }

  /** The form as first shown does not pass: the name, the amount 0 and the
      category each break a rule, and the day 1 does not. */
  lemma DefaultsRejected()
    ensures Parse(Defaults) == Invalid({NameTooShort, AmountNotPositive, CategoryTooShort})
  {
    assert Issues(Defaults) == {NameTooShort, AmountNotPositive, CategoryTooShort};
  }

  /** A number input left empty coerces to 0, so an empty amount fails the
      positivity rule and an empty day fails the lower bound. */
  lemma BlankFieldsRejected(name: string, category: string)
    ensures Parse(Values(name, Blank, Blank, category)).Invalid?
    ensures AmountNotPositive in Issues(Values(name, Blank, Blank, category))
    ensures DayBelowOne in Issues(Values(name, Blank, Blank, category))
  {
  }

  /** Every payload the schema accepts comes back unchanged when its fields
      are typed into the form again. */
  lemma PayloadRoundTrip(p: Payload)
    requires |p.name| >= 2 && p.amount > 0.0 && 1.0 <= p.dayOfMonth <= 31.0 && |p.category| >= 2
    ensures Parse(Values(p.name, Num(p.amount), Num(p.dayOfMonth), p.category)) == Valid(p)
  {
  }

  /** The day rule bounds the number, not its integer part: 1.5 passes. */
  lemma FractionalDayAccepted()
    ensures Parse(Values("Gym", Num(150.0), Num(1.5), "Health")).Valid?
  {
  }

  /** `onSubmit` after the schema: what is sent to the add action and the
      values the form holds afterwards. `added` is whether the action
      reported success; an invalid form sends nothing and stays as it is. */
  function Submit(v: Values, added: bool): (r: (Option<Payload>, Values))
    ensures r.0.Some? <==> Parse(v).Valid?
    ensures r.0.Some? ==> r.0.value == Parse(v).payload
    ensures r.1 == Defaults <==> (Parse(v).Valid? && added) || v == Defaults
    ensures r.1 != v ==> Parse(v).Valid? && added
  {
    match Parse(v)
    case Invalid(_) => (None, v)
    case Valid(p) => (Some(p), if added then Defaults else v)
  }

  /** A failed add keeps what the user typed, so submitting again sends the
      same payload. */
  lemma FailedAddResends(v: Values)
    requires Parse(v).Valid?
    ensures Submit(Submit(v, false).1, true).0 == Submit(v, false).0
  {
  }

  /** A successful add resets the form to values the schema refuses, so an
      immediate second submit sends nothing. */
  lemma SuccessfulAddResets(v: Values)
    requires Parse(v).Valid?
    ensures Submit(Submit(v, true).1, true).0 == None
  {
    DefaultsRejected();
  }
}

=== FILE: sorting.dfy ===
/** `Array.prototype.sort` with the comparator `(a, b) => a - b` on weekday
    numbers, as the budgets page and the daily-budget dialog call it: the
    result is the ascending arrangement of the same days. The sort works in
    place; here it returns the arranged list. */
module Sorting {

  predicate Sorted(s: seq<int>) {
    forall i, j :: 0 <= i < j < |s| ==> s[i] <= s[j]
  }

  /** A lower bound of a collection bounds every arrangement of it. */
  lemma LowerBoundCarries(r: seq<int>, pool: seq<int>, lo: int)
    requires multiset(r) == multiset(pool)
    requires forall j :: 0 <= j < |pool| ==> lo <= pool[j]
    ensures forall i :: 0 <= i < |r| ==> lo <= r[i]
  {
    forall i | 0 <= i < |r| ensures lo <= r[i] {
      assert r[i] in multiset(r);
      assert r[i] in multiset(pool);
      var j :| 0 <= j < |pool| && pool[j] == r[i];
    }
  }

  /** One step of insertion sort: `x` goes before the first element not
      below it. */
  function Insert(x: int, s: seq<int>): seq<int> {
    if s == [] || x <= s[0] then [x] + s else [s[0]] + Insert(x, s[1..])
  }

  lemma {:induction false} InsertPermutes(x: int, s: seq<int>)
    ensures multiset(Insert(x, s)) == multiset(s) + multiset{x}
    decreases |s|
  {
    if s != [] && x > s[0] {
      InsertPermutes(x, s[1..]);
      assert s == [s[0]] + s[1..];
      assert multiset(Insert(x, s)) == multiset{s[0]} + multiset(Insert(x, s[1..]));
    }
  }

  /** A sorted sequence stays sorted under a new head no larger than any of
      its elements. */
  lemma ConsSorted(h: int, t: seq<int>)
    requires Sorted(t)
    requires forall k :: 0 <= k < |t| ==> h <= t[k]
    ensures Sorted([h] + t)
  {
    var r := [h] + t;
    forall i, j | 0 <= i < j < |r| ensures r[i] <= r[j] {
      assert r[j] == t[j - 1];
      if i > 0 { assert r[i] == t[i - 1]; }
    }
  }

  lemma SortedTail(s: seq<int>)
    requires Sorted(s) && s != []
    ensures Sorted(s[1..])
    ensures forall k :: 0 <= k < |s[1..]| ==> s[0] <= s[1..][k]
  {
    forall k | 0 <= k < |s[1..]| ensures s[0] <= s[1..][k] {
      assert s[1..][k] == s[k + 1];
    }
  }

  lemma {:induction false} InsertSorted(x: int, s: seq<int>)
    requires Sorted(s)
    ensures Sorted(Insert(x, s))
    decreases |s|
  {
    if s == [] {
      assert Insert(x, s) == [x];
    } else if x <= s[0] {
      SortedTail(s);
      ConsSorted(x, s);
    } else {
      var rest := Insert(x, s[1..]);
      SortedTail(s);
      InsertSorted(x, s[1..]);
      InsertPermutes(x, s[1..]);
      var pool := s[1..] + [x];
      assert multiset(pool) == multiset(s[1..]) + multiset{x};
      forall j | 0 <= j < |pool| ensures s[0] <= pool[j] {
        if j < |s| - 1 { assert pool[j] == s[1..][j]; }
      }
      LowerBoundCarries(rest, pool, s[0]);
      ConsSorted(s[0], rest);
      assert [s[0]] + rest == Insert(x, s);
    }
  }

  /** `days.sort((a, b) => a - b)`, as insertion sort. */
  function SortDays(days: seq<int>): seq<int> {
    if days == [] then [] else Insert(days[|days| - 1], SortDays(days[..|days| - 1]))
  }

  /** The sort gives the days in ascending order, each as often as it was
      picked. */
  lemma {:induction false} SortDaysSpec(days: seq<int>)
    ensures Sorted(SortDays(days))
    ensures multiset(SortDays(days)) == multiset(days)
    decreases |days|
  {
    if days != [] {
      var init := days[..|days| - 1];
      SortDaysSpec(init);
      InsertSorted(days[|days| - 1], SortDays(init));
      InsertPermutes(days[|days| - 1], SortDays(init));
      assert days == init + [days[|days| - 1]];
    }
  }

  lemma SortedHeadsAgree(a: seq<int>, b: seq<int>)
    requires Sorted(a) && Sorted(b) && a != [] && b != []
    requires multiset(a) == multiset(b)
    ensures a[0] == b[0]
  {
    assert a[0] in multiset(b) && b[0] in multiset(a);
    var i :| 0 <= i < |b| && b[i] == a[0];
    var j :| 0 <= j < |a| && a[j] == b[0];
    assert a[0] <= a[j] && b[0] <= b[i];
  }

  lemma TailMultiset(s: seq<int>)
    requires s != []
    ensures multiset(s[1..]) == multiset(s) - multiset{s[0]}
  {
    assert s == [s[0]] + s[1..];
  }

  lemma SameHeadSameTail(a: seq<int>, b: seq<int>)
    requires a != [] && b != [] && a[0] == b[0] && a[1..] == b[1..]
    ensures a == b
  {
    assert a == [a[0]] + a[1..] && b == [b[0]] + b[1..];
  }

  /** There is only one ascending arrangement of a collection of days. */
  lemma {:induction false} SortedUnique(a: seq<int>, b: seq<int>)
    requires Sorted(a) && Sorted(b)
    requires multiset(a) == multiset(b)
    ensures a == b
    decreases |a|
  {
    if a == [] {
      assert |b| == |multiset(b)| == 0;
    } else {
      assert b != [] by {
        assert a[0] in multiset(b);
      }
      SortedHeadsAgree(a, b);
      TailMultiset(a);
      TailMultiset(b);
      SortedTail(a);
      SortedTail(b);
      SortedUnique(a[1..], b[1..]);
      SameHeadSameTail(a, b);
    }
  }

  /** A list already in ascending order is left as it is. */
  lemma SortKeepsSorted(days: seq<int>)
    requires Sorted(days)
    ensures SortDays(days) == days
  {
    SortDaysSpec(days);
    SortedUnique(SortDays(days), days);
  }
}

=== FILE: text.dfy ===
/** The string operations the forms and pages use: `trim`, `toLowerCase`,
    `Number.prototype.toString` on small naturals, and `Array.join`. */
module Text {

  /** The white-space characters `String.prototype.trim` removes (the
      Latin-1 and ASCII part of the set). */
  predicate IsWhitespace(c: char) {
    c == ' ' || c == '\t' || c == '\n' || c == '\r' || c == '\U{000B}' || c == '\U{000C}'
    || c == '\U{00A0}' || c == '\U{FEFF}'
  }

  predicate IsBlank(s: string) {
    forall i :: 0 <= i < |s| ==> IsWhitespace(s[i])
  }

  /** The position of the first non-white-space character at or after i
      (|s| when there is none). */
  function SkipSpace(s: string, i: nat): (n: nat)
    requires i <= |s|
    ensures i <= n <= |s|
    ensures forall j :: i <= j < n ==> IsWhitespace(s[j])
    ensures n == |s| || !IsWhitespace(s[n])
    decreases |s| - i
  {
    if i < |s| && IsWhitespace(s[i]) then SkipSpace(s, i + 1) else i
  }

  /** The characters `trimStart` removes are exactly the leading white
      space. */
  function TrimStart(s: string): (r: string)
    ensures |r| <= |s| && r == s[|s| - |r|..]
    ensures forall i :: 0 <= i < |s| - |r| ==> IsWhitespace(s[i])
    ensures r == [] || !IsWhitespace(r[0])
  {
    s[SkipSpace(s, 0)..]
  }

  function TrimEnd(s: string): (r: string)
    ensures |r| <= |s| && r == s[..|r|]
    ensures forall i :: |r| <= i < |s| ==> IsWhitespace(s[i])
    ensures r == [] || !IsWhitespace(r[|r| - 1])
  {
    if |s| > 0 && IsWhitespace(s[|s| - 1]) then
      var r := TrimEnd(s[..|s| - 1]);
      assert forall i :: |r| <= i < |s| - 1 ==> s[i] == s[..|s| - 1][i];
      r
    else s
  }

  function Trim(s: string): string {
    TrimEnd(TrimStart(s))
  }

  /** `s.trim()` is truthy exactly when s holds a non-white-space character. */
  lemma TrimEmptyIffBlank(s: string)
    ensures Trim(s) == [] <==> IsBlank(s)
  {
    var t := TrimStart(s);
    if t != [] {
      assert t[0] == s[|s| - |t|];
      assert TrimEnd(t) != [] by {
        assert t[0..] == t;
      }
    } else {
      assert s[..|s|] == s;
    }
  }

  /** `toLowerCase` on the ASCII and Latin-1 capitals. */
  function LowerChar(c: char): char {
    if 'A' <= c <= 'Z' then (c as int + 32) as char
    else if '\U{00C0}' <= c <= '\U{00DE}' && c != '\U{00D7}' then (c as int + 32) as char
    else c
  }

  function ToLower(s: string): (r: string)
    ensures |r| == |s|
    ensures forall i :: 0 <= i < |s| ==> r[i] == LowerChar(s[i])
  {
    if s == [] then [] else [LowerChar(s[0])] + ToLower(s[1..])
  }

  lemma LowerCharIdempotent(c: char)
    ensures LowerChar(LowerChar(c)) == LowerChar(c)
  {
  }

  /** Lower-casing twice is lower-casing once. */
  lemma ToLowerIdempotent(s: string)
    ensures ToLower(ToLower(s)) == ToLower(s)
  {
    var t := ToLower(s);
    forall i | 0 <= i < |s|
      ensures ToLower(t)[i] == t[i]
    {
      LowerCharIdempotent(s[i]);
    }
  }

  function DigitChar(d: nat): char
    requires d < 10
  {
    ('0' as int + d) as char
  }

  predicate IsDigit(c: char) {
    '0' <= c <= '9'
  }

  /** `n.toString()` for a natural number. */
  function NatToString(n: nat): (s: string)
    ensures |s| > 0
    ensures forall i :: 0 <= i < |s| ==> IsDigit(s[i])
    ensures |s| > 1 ==> s[0] != '0'
  {
    if n < 10 then [DigitChar(n)] else NatToString(n / 10) + [DigitChar(n % 10)]
  }

  /** The natural number a string of decimal digits spells. */
  function DigitsValue(s: string): nat
    requires forall i :: 0 <= i < |s| ==> IsDigit(s[i])
  {
    if s == [] then 0
    else
      var last := s[|s| - 1];
      assert IsDigit(last);
      10 * DigitsValue(s[..|s| - 1]) + (last as int - '0' as int)
  }

  /** Reading back the decimal spelling gives the number: distinct numbers
      have distinct spellings. */
  lemma {:induction false} NatToStringRoundTrip(n: nat)
    ensures DigitsValue(NatToString(n)) == n
  {
    var s := NatToString(n);
    if n >= 10 {
      NatToStringRoundTrip(n / 10);
      assert s[..|s| - 1] == NatToString(n / 10);
    }
  }

  lemma NatToStringInjective(a: nat, b: nat)
    requires NatToString(a) == NatToString(b)
    ensures a == b
  {
    NatToStringRoundTrip(a);
    NatToStringRoundTrip(b);
  }

  /** `parts.join(sep)`. */
  function Join(parts: seq<string>, sep: string): string {
    if parts == [] then []
    else if |parts| == 1 then parts[0]
    else parts[0] + sep + Join(parts[1..], sep)
  }
}

=== FILE: transactions_calendar.dfy ===
/** The transactions calendar: how many income and expense transactions fall
    on each day, and which days carry an income or an expense dot. */
module TransactionsCalendar {
  import opened Types
  import opened Calendar

  /** The counters kept under one `toDateString()` key. */
  datatype DayCount = DayCount(day: Date, income: nat, expense: nat)

  /** `acc[day]`, or no counters (`undefined`) when the day has none. */
  function CountsOn(cs: seq<DayCount>, d: Date): (r: DayCount)
    ensures r.day == d
  {
    if cs == [] then DayCount(d, 0, 0)
    else if cs[0].day == d then cs[0]
    else CountsOn(cs[1..], d)
  }

  function Days(cs: seq<DayCount>): set<Date> {
    set i | 0 <= i < |cs| :: cs[i].day
  }

  predicate DistinctDays(cs: seq<DayCount>) {
    forall i, j :: 0 <= i < j < |cs| ==> cs[i].day != cs[j].day
  }

  lemma DaysCons(c: DayCount, cs: seq<DayCount>)
    ensures Days([c] + cs) == {c.day} + Days(cs)
  {
    var s := [c] + cs;
    forall x | x in Days(s) ensures x in {c.day} + Days(cs) {
      var i :| 0 <= i < |s| && s[i].day == x;
      if i > 0 { assert cs[i - 1].day == x; }
    }
    forall x | x in Days(cs) ensures x in Days(s) {
      var i :| 0 <= i < |cs| && cs[i].day == x;
      assert s[i + 1].day == x;
    }
    assert s[0].day == c.day;
  }

  /** One step of the reduce: create the day's counters if missing, then
      increment the income counter for an income and the expense counter
      for anything else. */
  function Bump(cs: seq<DayCount>, d: Date, kind: TxKind): (r: seq<DayCount>)
    ensures Days(r) == Days(cs) + {d}
  {
    if cs == [] then
      var c := if kind == Income then DayCount(d, 1, 0) else DayCount(d, 0, 1);
      DaysCons(c, []);
      assert [c] + [] == [c];
      [c]
    else
      DaysCons(cs[0], cs[1..]);
      assert cs == [cs[0]] + cs[1..];
      if cs[0].day == d then
        var c := if kind == Income then cs[0].(income := cs[0].income + 1) else cs[0].(expense := cs[0].expense + 1);
        DaysCons(c, cs[1..]);
        [c] + cs[1..]
      else
        var rest := Bump(cs[1..], d, kind);
        DaysCons(cs[0], rest);
        [cs[0]] + rest
  }

  /** `transactionsByDay`. */
  function TransactionsByDay(txs: seq<Transaction>): seq<DayCount> {
    if txs == [] then []
    else Bump(TransactionsByDay(txs[..|txs| - 1]), txs[|txs| - 1].date, txs[|txs| - 1].kind)
  }

  /** Reference definition: how many transactions of a kind fall on day d. */
  function CountOf(txs: seq<Transaction>, d: Date, kind: TxKind): nat {
    if txs == [] then 0
    else CountOf(txs[..|txs| - 1], d, kind) + (if txs[|txs| - 1].date == d && txs[|txs| - 1].kind == kind then 1 else 0)
  }

  /** The counters of all days added up. */
  function TotalCount(cs: seq<DayCount>): nat {
    if cs == [] then 0 else cs[0].income + cs[0].expense + TotalCount(cs[1..])
  }

  lemma {:induction false} BumpCounts(cs: seq<DayCount>, d: Date, kind: TxKind, e: Date)
    ensures CountsOn(Bump(cs, d, kind), e).income
      == CountsOn(cs, e).income + (if e == d && kind == Income then 1 else 0)
    ensures CountsOn(Bump(cs, d, kind), e).expense
      == CountsOn(cs, e).expense + (if e == d && kind == Expense then 1 else 0)
    decreases |cs|
  {
    if cs != [] && cs[0].day != d {
      BumpCounts(cs[1..], d, kind, e);
    }
  }

  lemma {:induction false} BumpTotal(cs: seq<DayCount>, d: Date, kind: TxKind)
    ensures TotalCount(Bump(cs, d, kind)) == TotalCount(cs) + 1
    decreases |cs|
  {
    if cs != [] && cs[0].day != d {
      BumpTotal(cs[1..], d, kind);
    }
  }

  lemma {:induction false} BumpDistinct(cs: seq<DayCount>, d: Date, kind: TxKind)
    requires DistinctDays(cs)
    ensures DistinctDays(Bump(cs, d, kind))
    decreases |cs|
  {
    if cs != [] && cs[0].day != d {
      BumpDistinct(cs[1..], d, kind);
      var rest := Bump(cs[1..], d, kind);
      var r := Bump(cs, d, kind);
      assert r == [cs[0]] + rest;
      forall i, j | 0 <= i < j < |r| ensures r[i].day != r[j].day {
        if i == 0 {
          assert r[j].day in Days(rest);
          if r[j].day != d {
            assert r[j].day in Days(cs[1..]);
            var m :| 0 <= m < |cs[1..]| && cs[1..][m].day == r[j].day;
            assert cs[m + 1].day == r[j].day;
          }
        } else {
          assert r[i].day == rest[i - 1].day && r[j].day == rest[j - 1].day;
        }
      }
    }
  }

  /** Each day's counters are the numbers (not the amounts) of income and of
      expense transactions dated that day. */
  lemma {:induction false} CountsAreTransactionCounts(txs: seq<Transaction>, d: Date)
    ensures CountsOn(TransactionsByDay(txs), d).income == CountOf(txs, d, Income)
    ensures CountsOn(TransactionsByDay(txs), d).expense == CountOf(txs, d, Expense)
    decreases |txs|
  {
    if txs != [] {
      CountsAreTransactionCounts(txs[..|txs| - 1], d);
      BumpCounts(TransactionsByDay(txs[..|txs| - 1]), txs[|txs| - 1].date, txs[|txs| - 1].kind, d);
    }
  }

  /** The days that carry at least one transaction. */
  function TxDates(txs: seq<Transaction>): set<Date> {
    set i | 0 <= i < |txs| :: txs[i].date
  }

  lemma TxDatesSnoc(txs: seq<Transaction>)
    requires txs != []
    ensures TxDates(txs) == TxDates(txs[..|txs| - 1]) + {txs[|txs| - 1].date}
  {
    var init := txs[..|txs| - 1];
    forall x | x in TxDates(txs) ensures x in TxDates(init) + {txs[|txs| - 1].date} {
      var i :| 0 <= i < |txs| && txs[i].date == x;
      if i < |init| { assert init[i] == txs[i]; }
    }
    forall x | x in TxDates(init) ensures x in TxDates(txs) {
      var i :| 0 <= i < |init| && init[i].date == x;
      assert txs[i] == init[i];
    }
  }

  /** One counter set per day that has transactions, and the counters over
      all days add up to the number of transactions. */
  lemma {:induction false} ByDayShape(txs: seq<Transaction>)
    ensures DistinctDays(TransactionsByDay(txs))
    ensures Days(TransactionsByDay(txs)) == TxDates(txs)
    ensures TotalCount(TransactionsByDay(txs)) == |txs|
    decreases |txs|
  {
    if txs != [] {
      var init := txs[..|txs| - 1];
      var t := txs[|txs| - 1];
      ByDayShape(init);
      BumpDistinct(TransactionsByDay(init), t.date, t.kind);
      BumpTotal(TransactionsByDay(init), t.date, t.kind);
      TxDatesSnoc(txs);
    }
  }

  /** The `income` modifier: `transactionsByDay[day]?.income > 0`. */
  predicate IncomeMarker(cs: seq<DayCount>, d: Date) {
    CountsOn(cs, d).income > 0
  }

  /** The `expense` modifier. */
  predicate ExpenseMarker(cs: seq<DayCount>, d: Date) {
    CountsOn(cs, d).expense > 0
  }

  lemma {:induction false} CountOfPositive(txs: seq<Transaction>, d: Date, kind: TxKind)
    ensures CountOf(txs, d, kind) > 0 <==> exists i :: 0 <= i < |txs| && txs[i].date == d && txs[i].kind == kind
    decreases |txs|
  {
    if txs != [] {
      var init := txs[..|txs| - 1];
      CountOfPositive(init, d, kind);
      if exists i :: 0 <= i < |txs| && txs[i].date == d && txs[i].kind == kind {
        var i :| 0 <= i < |txs| && txs[i].date == d && txs[i].kind == kind;
        if i < |init| {
          assert init[i] == txs[i];
        }
      }
      if exists i :: 0 <= i < |init| && init[i].date == d && init[i].kind == kind {
        var i :| 0 <= i < |init| && init[i].date == d && init[i].kind == kind;
        assert txs[i] == init[i];
      }
    }
  }

  /** A day shows the income dot exactly when an income transaction is
      dated that day, and the expense dot exactly when an expense is. */
  lemma MarkersIff(txs: seq<Transaction>, d: Date)
    ensures IncomeMarker(TransactionsByDay(txs), d)
      <==> exists i :: 0 <= i < |txs| && txs[i].date == d && txs[i].kind == Income
    ensures ExpenseMarker(TransactionsByDay(txs), d)
      <==> exists i :: 0 <= i < |txs| && txs[i].date == d && txs[i].kind == Expense
  {
    CountsAreTransactionCounts(txs, d);
    CountOfPositive(txs, d, Income);
    CountOfPositive(txs, d, Expense);
  }
}

=== FILE: types.dfy ===
/** Optional values: JavaScript's `undefined` next to a present value. */
module Wrappers {

  datatype Option<+T> = None | Some(value: T) {
    function GetOr(default: T): T {
      match this
      case Some(v) => v
      case None => default
    }
  }
}

/** Helpers on the weekday lists the forms edit. */
module Lists {

  /** `xs.filter(y => y !== x)`: every occurrence of x dropped. */
  function RemoveAll(xs: seq<int>, x: int): (r: seq<int>)
    ensures x !in r
    ensures forall y :: y != x ==> (y in r <==> y in xs)
    ensures |r| <= |xs|
    ensures x !in xs ==> r == xs
  {
    if xs == [] then []
    else if xs[|xs| - 1] == x then RemoveAll(xs[..|xs| - 1], x)
    else RemoveAll(xs[..|xs| - 1], x) + [xs[|xs| - 1]]
  }

  lemma RemoveAllSingleton(x: int)
    ensures forall y :: RemoveAll([y], x) == if y == x then [] else [y]
  {
    forall y ensures RemoveAll([y], x) == if y == x then [] else [y] {
      assert [y][..0] == [];
    }
  }

  /** The filter works element by element and keeps the order: filtering a
      concatenation concatenates the filtered parts. */
  lemma {:induction false} RemoveAllConcat(a: seq<int>, b: seq<int>, x: int)
    ensures RemoveAll(a + b, x) == RemoveAll(a, x) + RemoveAll(b, x)
    decreases |b|
  {
    if b == [] {
      assert a + b == a;
    } else {
      assert (a + b)[..|a + b| - 1] == a + b[..|b| - 1];
      RemoveAllConcat(a, b[..|b| - 1], x);
    }
  }
}

/** The records of the finance store, with the fields their usage sites read
    (`accountId`, `daysOfWeek`, `requiresApproval`, daily budgets, accounts
    and pending payments are read by the components but missing from the
    declared types). Money is an exact `real`. */
module Types {
  import opened Wrappers
  import opened Calendar

  datatype TxKind = Income | Expense

  datatype Transaction = Transaction(
    id: string,
    kind: TxKind,
    amount: real,
    date: Date,
    category: string,
    description: string,
    accountId: Option<string>)

  /** A stored field that may be missing (`undefined`), stored as `null`, or
      hold a value. */
  datatype Field<+T> = Absent | Null | Present(value: T)

  /** A recurring monthly payment as it sits in the store: records written
      before the weekday restriction and the approval flag existed lack
      those two fields. */
  datatype RecurringPayment = RecurringPayment(
    id: string,
    name: string,
    amount: real,
    category: string,
    dayOfMonth: int,
    daysOfWeek: Field<seq<int>>,
    description: Option<string>,
    requiresApproval: Field<bool>)

  datatype DailyBudgetItem = DailyBudgetItem(
    id: string,
    name: string,
    amount: real,
    category: string,
    description: string)

  /** `items.reduce((sum, item) => sum + item.amount, 0)`: what one day of
      a daily budget costs. */
  function ItemsTotal(items: seq<DailyBudgetItem>): real {
    if items == [] then 0.0 else ItemsTotal(items[..|items| - 1]) + items[|items| - 1].amount
  }

  datatype DailyBudget = DailyBudget(
    id: string,
    name: string,
    category: string,
    limit: real,
    daysOfWeek: seq<int>,
    description: Option<string>,
    items: seq<DailyBudgetItem>,
    autoCreate: bool,
    accountId: Option<string>)

  /** A monthly spending limit for one category. */
  datatype Budget = Budget(id: string, category: string, limit: real, recurring: bool)

  datatype Account = Account(id: string, name: string, accountType: string, balance: real)

  datatype Status = Pending | Approved | Rejected

  /** An obligation waiting for approval. `createdAt` is the instant its
      timestamp string denotes, in milliseconds since the epoch, or None
      when the string does not parse (`new Date(s)` is then an invalid
      date, which compares false with everything). */
  datatype PendingPayment = PendingPayment(
    id: string,
    sourceId: string,
    name: string,
    amount: real,
    category: string,
    createdAt: Option<int>,
    status: Status)

  /** The text of an `<input type="number">` (or of a select of numbers):
      either empty or the decimal spelling of a number. */
  datatype NumField = Blank | Num(value: real)
}
